=== FILE: README.md ===
# ng-masonry-grid-plus layout engine, in Dafny

This project models the layout engine of the Angular directive
`NgMasonryGridPlusDirective`, which arranges the children of an element in a
masonry grid. The model is written in Dafny.

It covers:
- how the caller's options are merged over the defaults (`mgOptionsChange`);
- how many columns fit and how wide they are (`getColInfo`);
- the greedy shortest-column packing run by `reflowGrids` once the item
  clones' images have settled, and the `rtol`/`ltor` offsets it writes;
- the reflow counter that makes a pass whose images settle late commit nothing;
- the scroll virtualisation: `calculatePageInfo` cuts the packed items into
  pages one viewport (times `pageSize`) high and widens each page by its
  neighbours, and `refreshDomElm` shows the widened range of the page under
  the scroll offset;
- when `afterImageLoad` runs `onFullLoad`;
- the width check of `onResize`.

DOM measurements are inputs:
- the container width;
- the width of the clone measured in CSS-grid mode;
- the items' rendered heights;
- the viewport height and the grid's offset inside the scroll container.

Files, one module each:
- `wrappers.dfy`: `Option` and `Result`.
- `options.dfy`: the options record and its normalisation.
- `geometry.dfy`: the column geometry.
- `packing.dfy`: the packing, as functions and as the array loop the source runs.
- `paging.dfy`: the page planner and the scroll-to-page arithmetic.
- `images.dfy`: the image-settle logic, as a state machine driven by load, error and timer events.
- `grid.dfy`: the class `Grid` holding the directive's mutable state.

JavaScript behaviour the model spells out:
- The page array is a JavaScript array with holes. It is modelled as a sequence
  of `Option<IndexRange>`, where `IndexRange(from, end)` stands for the
  source's `{from, to}` with `end == to + 1`.
- The widening `map` throws a TypeError when a neighbouring page is a hole.
  A hole arises when a page that meets no item is followed by a page that
  meets one; for packed items that takes a gutter taller than a page. A
  trailing page that meets no item only leaves the array shorter. The throw
  is modelled as an `Err` result.
  After the throw, the unwidened array stays in place and the grid stays as busy as it was.
- Page bands are closed intervals: an item whose bottom touches a page's top
  edge belongs to the page.
- One failing image settles the batch at once: `Promise.all` rejects on the
  first error, and the rejection handler is `onFullLoad` too.

## Model

| member | source | states |
|---|---|---|
| GridOptions.Assign | projects/ng-masonry-grid-plus/src/lib/ng-masonry-grid-plus.directive.ts:104 | each field the caller gives wins over the defaults; with no field given the defaults come back unchanged |
| GridOptions.AutoPageSize | projects/ng-masonry-grid-plus/src/lib/ng-masonry-grid-plus.directive.ts:108-110 | an 'auto' page size becomes 2 screens for a window at least 768 px wide and 3 otherwise |
| GridOptions.Normalise | projects/ng-masonry-grid-plus/src/lib/ng-masonry-grid-plus.directive.ts:90-110 | the result always has a numeric page size, and a zero gutter in CSS-grid mode. Otherwise the gutter and page size are the caller's or the default ('auto' resolved against the window). Every other field is the caller's where given and the default otherwise |
| GridOptions.NormaliseIdempotent | projects/ng-masonry-grid-plus/src/lib/ng-masonry-grid-plus.directive.ts:104-110 | handing normalised options back in changes nothing, whatever the window width is then |
| GridOptions.FullOverridesWin | projects/ng-masonry-grid-plus/src/lib/ng-masonry-grid-plus.directive.ts:104-110 | a caller giving every field of a normalised options record gets that record back |
| Geometry.MeasurableDivisors | projects/ng-masonry-grid-plus/src/lib/ng-masonry-grid-plus.directive.ts:298-306 | outside CSS-grid mode, on the inputs where the pixel arithmetic stays finite, the 'auto' count divides by a positive `gridWidth + gutter` and a fixed count gives each column at least one pixel of floor(width / gridNo) |
| Geometry.ColumnInfo | projects/ng-masonry-grid-plus/src/lib/ng-masonry-grid-plus.directive.ts:280-312 | in CSS-grid mode the column width is the clone's width, and a zero-width clone gives no columns; a fixed `gridNo` gives exactly that many columns |
| Geometry.ColumnCount | projects/ng-masonry-grid-plus/src/lib/ng-masonry-grid-plus.directive.ts:284-300 | the column count is the floor of (width + 12) / cloneWidth in CSS-grid mode, and of (width + gutter) / (gridWidth + gutter) with an 'auto' count |
| Geometry.BaseWidth | projects/ng-masonry-grid-plus/src/lib/ng-masonry-grid-plus.directive.ts:298-303 | with a fixed count of at least one column, the column width before the leftover pixels are spread, plus the gutter, is at least 1 px, so the remainder taken at line 305 never divides by zero |
| Geometry.ColumnsFit | projects/ng-masonry-grid-plus/src/lib/ng-masonry-grid-plus.directive.ts:298-306 | outside CSS-grid mode, cols columns of the computed width plus their gutters fit in width + gutter, and a column plus its gutter is at least 1 px |
| Geometry.AutoCountFillsRow | projects/ng-masonry-grid-plus/src/lib/ng-masonry-grid-plus.directive.ts:298-306 | with an 'auto' count a column is at least `gridWidth` wide and fewer than `cols` pixels of the row stay unused |
| Geometry.FixedCountShare | projects/ng-masonry-grid-plus/src/lib/ng-masonry-grid-plus.directive.ts:301-306 | with a fixed count a column is at least floor(width / gridNo) - gutter wide |
| Geometry.FixedCountMayLeaveSlack | projects/ng-masonry-grid-plus/src/lib/ng-masonry-grid-plus.directive.ts:301-306 | with a fixed count the spreading can leave more than one unused pixel per column (3 columns, gutter 30, 95 px leave 32 px) |
| Geometry.Offset | projects/ng-masonry-grid-plus/src/lib/ng-masonry-grid-plus.directive.ts:241 | column 0 sits at offset 0, and every later column lies at least one column width plus gutter further along |
| Geometry.ColumnBoxesInside | projects/ng-masonry-grid-plus/src/lib/ng-masonry-grid-plus.directive.ts:241 | outside CSS-grid mode every column placed at its offset col * (colWidth + gutter) lies inside the container |
| Packing.MinOf | projects/ng-masonry-grid-plus/src/lib/ng-masonry-grid-plus.directive.ts:237 | the minimum is one of the values and no value is below it |
| Packing.MaxOf | projects/ng-masonry-grid-plus/src/lib/ng-masonry-grid-plus.directive.ts:260 | the maximum is one of the values and no value is above it |
| Packing.IndexOf | projects/ng-masonry-grid-plus/src/lib/ng-masonry-grid-plus.directive.ts:238 | `indexOf` gives the first index holding the value, or -1 exactly when the value is absent |
| Packing.ShortestColumn | projects/ng-masonry-grid-plus/src/lib/ng-masonry-grid-plus.directive.ts:237-238 | the column chosen holds the minimal bottom and every column before it is strictly lower |
| Packing.Next | projects/ng-masonry-grid-plus/src/lib/ng-masonry-grid-plus.directive.ts:237-240 | the next item goes into an existing column, its top is that column's bottom, and its bottom is its top plus its height |
| Packing.NextRule | projects/ng-masonry-grid-plus/src/lib/ng-masonry-grid-plus.directive.ts:237-238 | the next item's top is the minimum of the column bottoms, and every column before the chosen one has a strictly greater bottom |
| Packing.BottomsUpTo | projects/ng-masonry-grid-plus/src/lib/ng-masonry-grid-plus.directive.ts:237-240 | after any number of items there is one bottom per column; how each item changes them is stated by `Packing.ColumnRaised`, `Packing.BottomsGrow` and `Packing.NoGaps` |
| Packing.PlacementsUpTo | projects/ng-masonry-grid-plus/src/lib/ng-masonry-grid-plus.directive.ts:234-258 | the items placed so far have one placement each, in item order |
| Packing.PlacementAt | projects/ng-masonry-grid-plus/src/lib/ng-masonry-grid-plus.directive.ts:234-258 | item k's placement is the `Next` placement on the column bottoms left by the items before it |
| Packing.Bottoms | projects/ng-masonry-grid-plus/src/lib/ng-masonry-grid-plus.directive.ts:240 | the final `lastRowBottom` has one bottom per column |
| Packing.Placements | projects/ng-masonry-grid-plus/src/lib/ng-masonry-grid-plus.directive.ts:234-258 | every item gets exactly one placement, in item order |
| Packing.ContainerHeight | projects/ng-masonry-grid-plus/src/lib/ng-masonry-grid-plus.directive.ts:260 | the container height is one of the final column bottoms, and no column bottom exceeds it |
| Packing.PlacementRule | projects/ng-masonry-grid-plus/src/lib/ng-masonry-grid-plus.directive.ts:237-240 | item k's top is the minimum of the column bottoms left by the items before it, its column is the first column at that minimum, and its bottom is top + height |
| Packing.ColumnRaised | projects/ng-masonry-grid-plus/src/lib/ng-masonry-grid-plus.directive.ts:240 | placing item n - 1 moves the bottom of its column, and of no other, to the item's bottom plus the gutter |
| Packing.NoGaps | projects/ng-masonry-grid-plus/src/lib/ng-masonry-grid-plus.directive.ts:237-240 | the column bottoms always add up to exactly the placed items' heights plus one gutter each: no item leaves a gap above it |
| Packing.PackStepAt | projects/ng-masonry-grid-plus/src/lib/ng-masonry-grid-plus.directive.ts:237-240 | with the minimum bottom and the first column holding it, one loop step places the next item there and moves only that column's bottom |
| Packing.BottomsGrow | projects/ng-masonry-grid-plus/src/lib/ng-masonry-grid-plus.directive.ts:240 | no column bottom ever decreases as items are placed |
| Packing.MinOfPointwise | projects/ng-masonry-grid-plus/src/lib/ng-masonry-grid-plus.directive.ts:237 | the minimum of bottoms that are pointwise no higher is no higher |
| Packing.PlacementsSorted | projects/ng-masonry-grid-plus/src/lib/ng-masonry-grid-plus.directive.ts:234-258 | items come out in order of their tops |
| Packing.SameColumnApart | projects/ng-masonry-grid-plus/src/lib/ng-masonry-grid-plus.directive.ts:240 | two items in the same column never overlap: the later one starts at least one gutter below the earlier one's bottom |
| Packing.ContainerHoldsItems | projects/ng-masonry-grid-plus/src/lib/ng-masonry-grid-plus.directive.ts:260 | the container height is at least every item's bottom plus the gutter |
| Packing.ThreeItemPacking | projects/ng-masonry-grid-plus/src/lib/ng-masonry-grid-plus.directive.ts:234-260 | with 2 columns, gutter 10 and heights 300, 50, 10 the items land in column 0 at top 0, column 1 at top 0 and column 1 at top 60, and the container is 310 px high |
| Packing.StyleOf | projects/ng-masonry-grid-plus/src/lib/ng-masonry-grid-plus.directive.ts:241-252 | the offset is written as `right` exactly for 'rtol' and as `left` otherwise, with the item's top and the column width |
| Packing.MinOfArray | projects/ng-masonry-grid-plus/src/lib/ng-masonry-grid-plus.directive.ts:237 | the loop computes the minimum of the column bottoms |
| Packing.MaxOfArray | projects/ng-masonry-grid-plus/src/lib/ng-masonry-grid-plus.directive.ts:260 | the loop computes the maximum of the column bottoms |
| Packing.IndexOfArray | projects/ng-masonry-grid-plus/src/lib/ng-masonry-grid-plus.directive.ts:238 | the loop finds the first column holding the value |
| Packing.Pack | projects/ng-masonry-grid-plus/src/lib/ng-masonry-grid-plus.directive.ts:188-260 | the in-place loop over `lastRowBottom` produces exactly the placements and container height of the packing functions |
| Paging.TotalPages | projects/ng-masonry-grid-plus/src/lib/ng-masonry-grid-plus.directive.ts:351 | the page count is the ceiling of container height / page height |
| Paging.Meets | projects/ng-masonry-grid-plus/src/lib/ng-masonry-grid-plus.directive.ts:359-362 | an item reaching into the page band at either edge is recorded, and a recorded item neither ends above the band nor starts below it; both edges are inclusive |
| Paging.Record | projects/ng-masonry-grid-plus/src/lib/ng-masonry-grid-plus.directive.ts:364-369 | recording item k sets the entry's `to` to k, and keeps its `from` or, for a new entry, sets it to k |
| Paging.Scan | projects/ng-masonry-grid-plus/src/lib/ng-masonry-grid-plus.directive.ts:358-371 | scanning on from an entry never changes its `from`, and a new entry starts no earlier than the item the scan starts at |
| Paging.Store | projects/ng-masonry-grid-plus/src/lib/ng-masonry-grid-plus.directive.ts:364-369 | storing page p sets entry p, keeps the others, and fills any gap before it with holes |
| Paging.ScanPages | projects/ng-masonry-grid-plus/src/lib/ng-masonry-grid-plus.directive.ts:343-372 | the nested loops with the early `break` produce the raw page array of the page-scan functions |
| Paging.ScanSound | projects/ng-masonry-grid-plus/src/lib/ng-masonry-grid-plus.directive.ts:359-370 | a page entry the scan records starts and ends at items that meet the page |
| Paging.ScanExtends | projects/ng-masonry-grid-plus/src/lib/ng-masonry-grid-plus.directive.ts:363-370 | scanning on from an entry keeps its first index and moves its end only to items that meet the page |
| Paging.ScanCovers | projects/ng-masonry-grid-plus/src/lib/ng-masonry-grid-plus.directive.ts:359-362 | with items in order of their tops, the `break` loses nothing: every item meeting the page lies in the recorded entry |
| Paging.ScanPage | projects/ng-masonry-grid-plus/src/lib/ng-masonry-grid-plus.directive.ts:357-371 | scanning page p leaves every other page's entry alone, and grows the array to at most p + 1 entries |
| Paging.RawPagesUpTo | projects/ng-masonry-grid-plus/src/lib/ng-masonry-grid-plus.directive.ts:343-372 | after n pages have been scanned the array has at least one entry and at most max(n, 1) |
| Paging.RawPages | projects/ng-masonry-grid-plus/src/lib/ng-masonry-grid-plus.directive.ts:343-372 | the raw page array is never empty, and for a non-zero container height it has at most ceil(height / page height) entries |
| Paging.RawPagesCover | projects/ng-masonry-grid-plus/src/lib/ng-masonry-grid-plus.directive.ts:353-372 | every item meeting a scanned page lies inside that page's raw entry |
| Paging.RawPagesSound | projects/ng-masonry-grid-plus/src/lib/ng-masonry-grid-plus.directive.ts:353-372 | a raw entry ends at an item meeting its page, and (after page 0) starts at one |
| Paging.ExpandAsWritten | projects/ng-masonry-grid-plus/src/lib/ng-masonry-grid-plus.directive.ts:374-381 | the widening as written throws exactly when the raw array has a hole; otherwise page i runs from page max(i-1, 0)'s `from` to page min(i+1, n-1)'s `to` |
| Paging.RawEnds | projects/ng-masonry-grid-plus/src/lib/ng-masonry-grid-plus.directive.ts:343-372 | the page loops leave the first and the last entry of the page array defined |
| Paging.SameThrow | projects/ng-masonry-grid-plus/src/lib/ng-masonry-grid-plus.directive.ts:374-381 | on an array whose first and last entries are defined, the `map`, which visits only defined entries, meets a hole as a clamped neighbour exactly when the array has a hole; with `RawEnds` this makes `ExpandAsWritten`'s throw the `map`'s own |
| Paging.Expand | projects/ng-masonry-grid-plus/src/lib/ng-masonry-grid-plus.directive.ts:374-381 | the corrected widening throws in the same cases, and page i covers the entries of pages i-1, i and i+1 |
| Paging.PageInfo | projects/ng-masonry-grid-plus/src/lib/ng-masonry-grid-plus.directive.ts:343-381 | planning fails exactly when the raw array has a hole; otherwise there is one widened entry per raw entry. The widening used is the corrected `Paging.Expand` |
| Paging.ExampleRawPages | projects/ng-masonry-grid-plus/src/lib/ng-masonry-grid-plus.directive.ts:343-372 | for the placements (column 0, 0-300), (column 1, 0-50), (column 1, 60-70), container height 310 and pages 100 px high, the raw array is items 0-2 for page 0 and item 0 alone for pages 1-3 |
| Paging.ExampleWidening | projects/ng-masonry-grid-plus/src/lib/ng-masonry-grid-plus.directive.ts:374-381 | on that raw array the widening as written gives item 0 alone for pages 0-3, and the corrected widening gives items 0-2 for pages 0 and 1 and item 0 alone for pages 2 and 3 |
| Paging.AsWrittenDropsItems | projects/ng-masonry-grid-plus/src/lib/ng-masonry-grid-plus.directive.ts:374-381 | packing 2 columns, gutter 10 and heights 300, 50, 10 (placements and container height as the packer computes them) into pages 100 px high, the widening as written keeps only item 0 on page 0 although items 1 and 2 meet page 0; the corrected widening keeps all three |
| Paging.WindowCoversNeighbours | projects/ng-masonry-grid-plus/src/lib/ng-masonry-grid-plus.directive.ts:343-381 | for packed items, every item meeting page j lies in the widened range of page j and of both its neighbours |
| Paging.CurrentPage | projects/ng-masonry-grid-plus/src/lib/ng-masonry-grid-plus.directive.ts:390-397 | the page is 0 exactly when the offset is at most one page below the grid's start; otherwise it is the page whose band holds the offset |
| Paging.CurrentPageMonotone | projects/ng-masonry-grid-plus/src/lib/ng-masonry-grid-plus.directive.ts:393-396 | scrolling further down never gives an earlier page |
| Paging.Slice | projects/ng-masonry-grid-plus/src/lib/ng-masonry-grid-plus.directive.ts:406 | `slice(from, to + 1)` keeps the items from `from`, in order, up to the end or the list's end, and is empty for an empty or out-of-range window |
| ImageSettle.Waits | projects/ng-masonry-grid-plus/src/lib/ng-masonry-grid-plus.directive.ts:454-461 | an image is waited for only if it has a `src`, and never when it is complete or ignored |
| ImageSettle.Where | projects/ng-masonry-grid-plus/src/lib/ng-masonry-grid-plus.directive.ts:449-465 | the indices listed are in increasing order, and an index is listed exactly when its image waits (or is ready now) |
| ImageSettle.Classify | projects/ng-masonry-grid-plus/src/lib/ng-masonry-grid-plus.directive.ts:449-465 | the loop lists, in order, the images given a promise (with a `src`, not complete, not ignored) and those handed to `isLoaded`; images without `src` are in neither list |
| ImageSettle.Begin | projects/ng-masonry-grid-plus/src/lib/ng-masonry-grid-plus.directive.ts:447-471 | exactly the waiting images are pending, and the zero-delay timer is set exactly when none is |
| ImageSettle.Step | projects/ng-masonry-grid-plus/src/lib/ng-masonry-grid-plus.directive.ts:455-470 | no event changes the watched images or adds a pending one; each callback runs at most once per event; a settled batch stays settled and never runs `onFullLoad` again; the timer runs no `onLoad` and settles no image |
| ImageSettle.Run | projects/ng-masonry-grid-plus/src/lib/ng-masonry-grid-plus.directive.ts:455-471 | over a run of events the watched images stay the same and pending ones only go; a settled batch stays settled and never runs `onFullLoad` again; `onLoad` runs at most once per event |
| ImageSettle.Inv | projects/ng-masonry-grid-plus/src/lib/ng-masonry-grid-plus.directive.ts:447-471 | in a state keeping the invariant, a pending image means some image is watched and the timer is not set, and a set timer means the batch has not settled |
| ImageSettle.StepInv | projects/ng-masonry-grid-plus/src/lib/ng-masonry-grid-plus.directive.ts:455-470 | each event keeps the batch invariant and runs `onFullLoad` exactly when it settles the batch |
| ImageSettle.RunCounts | projects/ng-masonry-grid-plus/src/lib/ng-masonry-grid-plus.directive.ts:467-471 | over any run of events, `onFullLoad` runs once if the run settles the batch and never otherwise |
| ImageSettle.AtMostOnce | projects/ng-masonry-grid-plus/src/lib/ng-masonry-grid-plus.directive.ts:467-471 | `onFullLoad` never runs twice for one call |
| ImageSettle.RunFires | projects/ng-masonry-grid-plus/src/lib/ng-masonry-grid-plus.directive.ts:467-471 | a run in which the timer fires when set, and every pending image loads or fails, settles the batch |
| ImageSettle.ExactlyOnce | projects/ng-masonry-grid-plus/src/lib/ng-masonry-grid-plus.directive.ts:467-471 | when the timer fires (if nothing was pending) and every pending image loads or fails, `onFullLoad` runs exactly once |
| ImageSettle.NoEarlyFire | projects/ng-masonry-grid-plus/src/lib/ng-masonry-grid-plus.directive.ts:468 | while only other images load, a batch with a pending image does not settle |
| ImageSettle.ErrorSettlesEarly | projects/ng-masonry-grid-plus/src/lib/ng-masonry-grid-plus.directive.ts:460-468 | one failing image runs `onFullLoad` at once, while other images are still pending |
| ImageSettle.OnLoadPerLoad | projects/ng-masonry-grid-plus/src/lib/ng-masonry-grid-plus.directive.ts:456-459 | `onLoad` runs once for every load event of a watched image, even after its promise resolved, and for nothing else |
| MasonryGrid.PageHeight | projects/ng-masonry-grid-plus/src/lib/ng-masonry-grid-plus.directive.ts:350 | the page height is zero exactly when the viewport height or the page size is |
| MasonryGrid.Styles | projects/ng-masonry-grid-plus/src/lib/ng-masonry-grid-plus.directive.ts:241-253 | each item's css has its placement's top, the column width and the offset of its column |
| MasonryGrid.Grid.constructor | projects/ng-masonry-grid-plus/src/lib/ng-masonry-grid-plus.directive.ts:50-54 | a new directive records the element's width, holds the normalised options, and has no list, layout or page state |
| MasonryGrid.Grid.StartReflow | projects/ng-masonry-grid-plus/src/lib/ng-masonry-grid-plus.directive.ts:177-185 | with no list or an empty one nothing changes, and nothing is demanded of the geometry inputs; otherwise `reflowCount` goes up by one before the column check, and a pass starts exactly when there is a column, capturing the new count and the geometry |
| MasonryGrid.Grid.ApplyOptions | projects/ng-masonry-grid-plus/src/lib/ng-masonry-grid-plus.directive.ts:90-113 | the options become the normalised caller options. With no list or an empty one the counter stays and no pass starts; otherwise the counter goes up by one and a pass starts exactly when the new options give a column, capturing the new count and the geometry |
| MasonryGrid.Grid.OnModelChange | projects/ng-masonry-grid-plus/src/lib/ng-masonry-grid-plus.directive.ts:117 | the grid becomes busy |
| MasonryGrid.Grid.LoadItems | projects/ng-masonry-grid-plus/src/lib/ng-masonry-grid-plus.directive.ts:128-131 | the list becomes the given items |
| MasonryGrid.Grid.OnResize | projects/ng-masonry-grid-plus/src/lib/ng-masonry-grid-plus.directive.ts:69-75 | the grid becomes busy, a reflow is scheduled exactly when the width changed, and the new width is recorded |
| MasonryGrid.Grid.ResizeSettled | projects/ng-masonry-grid-plus/src/lib/ng-masonry-grid-plus.directive.ts:81-86 | with virtualisation on every listed item is attached again, and otherwise the children stay. Then, as in `StartReflow`, a non-empty list bumps the counter, which makes every earlier pass stale, and a pass starts exactly when there is a column |
| MasonryGrid.Grid.RefreshPage | projects/ng-masonry-grid-plus/src/lib/ng-masonry-grid-plus.directive.ts:384-410 | the offset is always recorded. When busy nothing else changes. Otherwise the page under the offset becomes the last page; if it differs from the previous one and has an entry, the children become exactly that range of the list, in order |
| MasonryGrid.Grid.PlanPages | projects/ng-masonry-grid-plus/src/lib/ng-masonry-grid-plus.directive.ts:265-272 | the page array is the one planned with the corrected widening `Paging.Expand`. If widening throws, the raw array stays and the busy flag is untouched. Otherwise the grid is no longer busy and shows the page of the last scroll offset |
| MasonryGrid.Grid.Commit | projects/ng-masonry-grid-plus/src/lib/ng-masonry-grid-plus.directive.ts:224-272 | a stale pass changes nothing. A current one packs the listed items with the leading measured heights, writes their css and the container height, and with virtualisation on plans the pages with the corrected widening |
| MasonryGrid.LatestPassWins | projects/ng-masonry-grid-plus/src/lib/ng-masonry-grid-plus.directive.ts:224-231 | two passes start in turn; the second settles and commits first, and then the first, now stale, commits nothing, so the layout and height are the second pass's packing |

## Left out

- DOM and jQuery plumbing is not modelled:
  - clone creation and removal;
  - css and class writes (the model keeps the written values);
  - `detach`/`append`.
- `findPos` and `getScrollContainerInfo`: their results are the `ScrollInfo` parameter of `Grid.Commit`.
- The clone measured in CSS-grid mode is not modelled: its width is the `cloneWidth` parameter.
- Timers, promises and event wiring are not modelled:
  - the resize debounce;
  - `mgModelChange`'s deferred body, `checkAnimate` and `nextTick`.

  The caller invokes `Grid.LoadItems`, `Grid.ResizeSettled` and `Grid.Commit` in the order the timers would fire them.
- `handleImage`'s loading classes and its debounced reflow on image load.
- The aspect-ratio pre-sizing of images: it is floating-point pixel arithmetic on live image widths.
- `bindWatchersOnVisible` (its body is commented out), `reEnableInfiniteScroll` and the never-initialised `infiniteScroll` emitter. As that emitter is always undefined, only `performantScroll` decides whether scroll information is taken.
- The Angular module files and the demo application.
- Pixel values and numeric options are natural numbers: negative or fractional widths, heights and gutters are not modelled.
- An explicit `undefined` field handed to `Object.assign` is not modelled: a field is either given or not.
- Geometry.ColumnInfo: requires `Measurable`. That excludes the inputs for which the source divides by zero and computes `NaN` or `Infinity`:
  - a zero `gridWidth + gutter` with an 'auto' count;
  - a fixed `gridNo` above the container width.
- MasonryGrid.Grid.Commit: requires at least as many measured heights as listed items. A list that shrank between a pass's start and its commit is packed with the leading clones' heights, as the source does. A list that grew is not modelled. There the source reads an undefined height for each new item:
  - the first new item still gets a finite top and a real column, but its bottom and its column's bottom become `NaN`;
  - every later item gets a `NaN` top, column -1 (`indexOf(NaN)`) and so the offset -(colWidth + gutter);
  - the container height becomes `NaN`.
- MasonryGrid.Grid.Commit: requires a non-zero page height when virtualisation is on. With a zero page height and a non-zero container height, the source's page loop never ends. With both zero, `Math.ceil(0 / 0)` is `NaN`, so the page loop never runs, the page array stays `[{from: 0}]`, and page 0 shows `slice(0, NaN)`, which is empty. The model does not cover that case.
- MasonryGrid.Grid.constructor: assumes the `mg-options` input is bound. The directive's `mgOptions` is set only by that binding (lines 60-61 and 104). Without it, the first reflow of a non-empty list raises `reflowCount` and then throws a TypeError reading `this.mgOptions.cssGrid` in `getColInfo` (line 284), so nothing is laid out. The resize callback throws the same way at line 82. The model's `NoOverrides` instead lays the grid out with the defaults.
- MasonryGrid.Grid.RefreshPage: requires, when not busy, the list, the scroll information and a non-zero page height. The source calls it only from a committing pass, where the list and the scroll information are set and the commit has required the non-zero page height.
- MasonryGrid.Grid.PlanPages: plans pages with the corrected widening `Paging.Expand`, not with the widening at projects/ng-masonry-grid-plus/src/lib/ng-masonry-grid-plus.directive.ts:374-381, which is `Paging.ExpandAsWritten` (see Findings). On the Findings input it shows items 0-2 for page 0 where the source shows item 0 alone.
- MasonryGrid.Grid.Commit: plans pages through `PlanPages`, so it too runs the corrected widening rather than the source's.
- MasonryGrid.LatestPassWins: inherits the corrected widening through `Grid.Commit`; its stated layout and height do not depend on it.
- Paging.PageInfo: widens with the corrected `Paging.Expand`, not with the source's widening.
- Paging.Expand: keeps the source's throw on a hole in the raw page array, that is, on a page that meets no item but is followed by one that does. The source does not fill such a hole.

## Findings

| source | as written | input that shows it | evidently intended | confidence | as-written member | corrected member |
|---|---|---|---|---|---|---|
| projects/ng-masonry-grid-plus/src/lib/ng-masonry-grid-plus.directive.ts:374-381 | a widened page ends at the `to` of the next page only, which can lie before the page's own last item when a tall item spans several pages | 2 columns, gutter 10, item heights 300, 50, 10, page height 100: raw page 0 is items 0-2 and pages 1-3 are item 0 alone, so widened page 0 shows item 0 only although items 1 and 2 are on it | each widened page covers every item of itself and its two neighbours | high; not executed | Paging.ExpandAsWritten, Paging.AsWrittenDropsItems | Paging.Expand, Paging.WindowCoversNeighbours |

=== FILE: geometry.dfy ===
/** Column geometry (`getColInfo`): how many columns fit in the container and
    how wide each one is. */
module Geometry {
  import opened GridOptions

  datatype ColInfo = ColInfo(cols: nat, colWidth: int)

  /** In CSS-grid mode the measured column width may overshoot the container by this much. */
  const CssGridAllowance := 12

  /** The inputs for which the directive's pixel arithmetic stays finite: the
      divisor of the 'auto' column count is not zero, and a fixed column count
      leaves each column at least one pixel of `floor(width / gridNo)`. */
  predicate Measurable(containerWidth: nat, o: Options)
  {
    o.cssGrid ||
    match o.gridNo
    case AutoCount => o.gridWidth + o.gutterSize > 0
    case FixedCount(n) => n <= containerWidth
  }

  /** What `Measurable` secures outside CSS-grid mode: the divisor of the
      'auto' column count is positive, and a fixed count leaves every column
      at least one pixel of `floor(width / gridNo)`. */
  lemma MeasurableDivisors(containerWidth: nat, o: Options)
    requires Measurable(containerWidth, o) && !o.cssGrid
    ensures o.gridNo.AutoCount? ==> o.gridWidth + o.gutterSize > 0
    ensures o.gridNo.FixedCount? && o.gridNo.n > 0 ==> containerWidth / o.gridNo.n >= 1
  {
  }

  /** `getColInfo`. `cloneWidth` is the rendered width of the invisible clone of
      the first item, which the CSS-grid mode measures. When the column count
      is zero the width is never used (the reflow stops). */
  function ColumnInfo(containerWidth: nat, o: Options, cloneWidth: nat): (r: ColInfo)
    requires Measurable(containerWidth, o)
    ensures o.cssGrid ==> r.colWidth == cloneWidth
    ensures o.cssGrid && cloneWidth == 0 ==> r.cols == 0
    ensures !o.cssGrid && o.gridNo.FixedCount? ==> r.cols == o.gridNo.n
  {
    if o.cssGrid then
      ColInfo(if cloneWidth > 0 then (containerWidth + CssGridAllowance) / cloneWidth else 0, cloneWidth)
    else
      var g := o.gutterSize;
      var base := BaseWidth(containerWidth, o);
      var cols: nat :=
        match o.gridNo
        case AutoCount => (containerWidth + g) / (o.gridWidth + g)
        case FixedCount(n) => n;
      if cols == 0 then ColInfo(0, base)
      else
        var remainingSpace := (containerWidth + g) % (base + g);
        ColInfo(cols, base + remainingSpace / cols)
  }

  /** The column width before the leftover pixels are spread: `gridWidth` with
      an 'auto' count, `floor(width / gridNo) - gutter` with a fixed one. */
  function BaseWidth(containerWidth: nat, o: Options): (w: int)
    requires Measurable(containerWidth, o) && !o.cssGrid
    ensures o.gridNo.FixedCount? && o.gridNo.n > 0 ==> w + o.gutterSize >= 1
  {
    match o.gridNo
    case AutoCount => o.gridWidth
    case FixedCount(n) => if n == 0 then 0 else containerWidth / n - o.gutterSize
  }

  lemma DivBounds(a: nat, b: nat)
    requires b > 0
    ensures (a / b) * b <= a < (a / b) * b + b
  {
  }

  lemma Distrib(a: int, b: int, c: int)
    ensures a * (b + c) == a * b + a * c
  {
  }

  /** The column count is the floor `getColInfo` computes: in CSS-grid mode the
      number of measured columns that fit in the width plus the allowance, with
      an 'auto' count the number of (gridWidth + gutter) slots that fit in the
      width plus one gutter. */
  lemma ColumnCount(containerWidth: nat, o: Options, cloneWidth: nat)
    requires Measurable(containerWidth, o)
    ensures var r := ColumnInfo(containerWidth, o, cloneWidth);
            (o.cssGrid && cloneWidth > 0 ==>
               r.cols * cloneWidth <= containerWidth + CssGridAllowance < r.cols * cloneWidth + cloneWidth) &&
            (!o.cssGrid && o.gridNo.AutoCount? ==>
               r.cols * (o.gridWidth + o.gutterSize) <= containerWidth + o.gutterSize
                 < r.cols * (o.gridWidth + o.gutterSize) + o.gridWidth + o.gutterSize)
  {
    if o.cssGrid && cloneWidth > 0 {
      DivBounds(containerWidth + CssGridAllowance, cloneWidth);
    } else if !o.cssGrid && o.gridNo.AutoCount? {
      DivBounds(containerWidth + o.gutterSize, o.gridWidth + o.gutterSize);
    }
  }

  /** Horizontal offset of column `col` from the container's start edge (`posX`). */
  function Offset(col: nat, colWidth: int, gutter: nat): (x: int)
    ensures col == 0 ==> x == 0
    ensures col > 0 && colWidth + gutter >= 0 ==> x >= colWidth + gutter
  {
    StepBound(col, colWidth + gutter);
    col * (colWidth + gutter)
  }

  /** A positive number of non-negative steps covers at least one step. */
  lemma StepBound(n: nat, step: int)
    ensures n > 0 && step >= 0 ==> n * step >= step
  {
    if n > 0 && step >= 0 {
      MulMono(1, n, step);
    }
  }

  lemma MulMono(a: nat, b: nat, c: int)
    requires a <= b && c >= 0
    ensures a * c <= b * c
  {
  }

  /** Spreading `rem / cols` extra pixels over `cols <= w / q` slots of `q`
      pixels stays within `w`. */
  lemma SpreadFits(w: nat, q: nat, cols: nat)
    requires q > 0 && 0 < cols && cols * q <= w
    ensures cols * (q + (w % q) / cols) <= w
  {
    var rem := w % q;
    var d := rem / cols;
    DivBounds(rem, cols);
    assert d * cols <= rem;
    Distrib(cols, q, d);
    DivBounds(w, q);
    var k := w / q;
    assert w == k * q + rem;
    if k < cols {
      MulMono(k + 1, cols, q);
      Distrib(q, k, 1);
    }
    MulMono(cols, k, q);
  }

  /** Outside CSS-grid mode the columns and the gutters between them never
      overflow the container: cols * colWidth + (cols - 1) * gutter <= width. */
  lemma {:induction false} ColumnsFit(containerWidth: nat, o: Options, cloneWidth: nat)
    requires Measurable(containerWidth, o) && !o.cssGrid
    requires ColumnInfo(containerWidth, o, cloneWidth).cols > 0
    ensures var r := ColumnInfo(containerWidth, o, cloneWidth);
            r.colWidth + o.gutterSize > 0 &&
            r.cols * (r.colWidth + o.gutterSize) <= containerWidth + o.gutterSize
  {
    var r := ColumnInfo(containerWidth, o, cloneWidth);
    var g := o.gutterSize;
    var w: nat := containerWidth + g;
    var q: nat := BaseWidth(containerWidth, o) + g;
    assert r.colWidth + g == q + (w % q) / r.cols;
    if o.gridNo.FixedCount? {
      var n := o.gridNo.n;
      DivBounds(containerWidth, n);
      assert q == containerWidth / n;
      assert n * q <= w;
    } else {
      DivBounds(w, q);
      assert r.cols == w / q;
    }
    SpreadFits(w, q, r.cols);
  }

  /** With an 'auto' column count the leftover pixels are spread over the
      columns: what stays unused is less than one pixel per column. */
  lemma {:induction false} AutoCountFillsRow(containerWidth: nat, o: Options, cloneWidth: nat)
    requires Measurable(containerWidth, o) && !o.cssGrid && o.gridNo.AutoCount?
    requires ColumnInfo(containerWidth, o, cloneWidth).cols > 0
    ensures var r := ColumnInfo(containerWidth, o, cloneWidth);
            r.colWidth >= o.gridWidth &&
            0 <= containerWidth + o.gutterSize - r.cols * (r.colWidth + o.gutterSize) < r.cols
  {
    var r := ColumnInfo(containerWidth, o, cloneWidth);
    var g := o.gutterSize;
    var w: nat := containerWidth + g;
    var q: nat := o.gridWidth + g;
    var cols := r.cols;
    var rem: nat := w % q;
    var d: nat := rem / cols;
    assert cols == w / q;
    assert w == cols * q + rem;
    DivBounds(rem, cols);
    assert r.colWidth + g == q + d;
    Distrib(cols, q, d);
    assert cols * (r.colWidth + g) == cols * q + cols * d;
  }

  /** With a fixed column count each column is at least its equal share of the
      width less one gutter. */
  lemma FixedCountShare(containerWidth: nat, o: Options, cloneWidth: nat)
    requires Measurable(containerWidth, o) && !o.cssGrid && o.gridNo.FixedCount? && o.gridNo.n > 0
    ensures ColumnInfo(containerWidth, o, cloneWidth).colWidth >= containerWidth / o.gridNo.n - o.gutterSize
  {
  }

  /** With a fixed column count the leftover is not always spread: 3 columns
      with a 30 pixel gutter in 95 pixels are 1 pixel wide and leave 32 pixels
      unused, more than one per column. */
  lemma FixedCountMayLeaveSlack()
    ensures var o := Defaults.(gridNo := FixedCount(3), gutterSize := 30);
            var r := ColumnInfo(95, o, 0);
            r == ColInfo(3, 1) && 95 + 30 - r.cols * (r.colWidth + 30) == 32
  {
  }

  /** Every column box, placed at its offset, ends inside the container
      (outside CSS-grid mode). */
  lemma {:induction false} ColumnBoxesInside(containerWidth: nat, o: Options, cloneWidth: nat, col: nat)
    requires Measurable(containerWidth, o) && !o.cssGrid
    requires col < ColumnInfo(containerWidth, o, cloneWidth).cols
    ensures var r := ColumnInfo(containerWidth, o, cloneWidth);
            0 <= Offset(col, r.colWidth, o.gutterSize) &&
            Offset(col, r.colWidth, o.gutterSize) + r.colWidth <= containerWidth
  {
    var r := ColumnInfo(containerWidth, o, cloneWidth);
    ColumnsFit(containerWidth, o, cloneWidth);
    BoxInside(col, r.cols, r.colWidth + o.gutterSize, containerWidth + o.gutterSize);
  }

  lemma BoxInside(col: nat, cols: nat, step: int, room: int)
    requires col < cols && step > 0 && cols * step <= room
    ensures 0 <= col * step && col * step + step <= room
  {
    MulMono(col + 1, cols, step);
    Distrib(step, col, 1);
  }
}

=== FILE: grid.dfy ===
/** The directive's own state: the options, the element list, the reflow
    counter, the last measured width and the scroll-virtualisation fields,
    with the operations that change them. */
module MasonryGrid {
  import opened Wrappers
  import opened GridOptions
  import opened Geometry
  import opened Packing
  import opened Paging

  /** A grid item, by identity. */
  type Item = nat

  /** A reflow pass once started: the `reflowCount` it captured and the
      column geometry it measured. */
  datatype Pass = Pass(index: nat, geometry: ColInfo)

  /** What `getScrollContainerInfo` measures and the planner uses: the
      viewport height and where the grid starts inside the scroll container. */
  datatype ScrollInfo = ScrollInfo(height: nat, startFrom: int)

  /** One page's height: the viewport height times `pageSize`. */
  function PageHeight(o: Options, info: ScrollInfo): (h: nat)
    requires o.pageSize.Screens?
    ensures h == 0 <==> info.height == 0 || o.pageSize.n == 0
  {
    info.height * o.pageSize.n
  }

  /** The page array once every page has an entry. */
  function Somes(w: seq<IndexRange>): (s: seq<Option<IndexRange>>)
    ensures |s| == |w| && NoHoles(s)
    ensures forall i :: 0 <= i < |w| ==> s[i].value == w[i]
  {
    seq(|w|, i requires 0 <= i < |w| => Some(w[i]))
  }

  /** The css every item gets from a pass. */
  function Styles(ps: seq<Placement>, colWidth: int, g: nat, dir: Direction): (l: seq<ItemStyle>)
    ensures |l| == |ps|
    ensures forall i :: 0 <= i < |ps| ==> l[i].top == ps[i].top && l[i].width == colWidth
    ensures forall i :: 0 <= i < |ps| ==> l[i].offset == Offset(ps[i].col, colWidth, g)
  {
    seq(|ps|, i requires 0 <= i < |ps| => StyleOf(ps[i], colWidth, g, dir))
  }

  class Grid {
    /** `mgOptions` after normalisation. */
    var options: Options
    /** `listElements`; `None` until the first model change has been read. */
    var list: Option<seq<Item>>
    /** The items attached to the container, in order. */
    var children: seq<Item>
    var reflowCount: nat
    var lastDomWidth: nat
    /** The css written on the items by the last committed pass. */
    var layout: seq<ItemStyle>
    /** The container's css height, once a pass has committed. */
    var containerHeight: Option<nat>
    /** `scrollNamespace`: page array, busy flag, last page shown, last scroll offset, container info. */
    var pageInfo: seq<Option<IndexRange>>
    var isBusy: bool
    var lastPage: Option<nat>
    var lastScrollPosition: int
    var scrollInfo: Option<ScrollInfo>

    predicate Valid()
      reads this
    {
      Normalised(options)
    }

    /** The directive is created on an element of the given width and then
        receives its first options binding (with no list yet, nothing reflows). */
    constructor (domWidth: nat, caller: Overrides, windowWidth: int)
      ensures Valid()
      ensures options == Normalise(caller, windowWidth)
      ensures lastDomWidth == domWidth && reflowCount == 0
      ensures list == None && children == [] && layout == [] && containerHeight == None
      ensures pageInfo == [] && !isBusy && lastPage == None && lastScrollPosition == 0 && scrollInfo == None
    {
      options := Normalise(caller, windowWidth);
      list := None;
      children := [];
      reflowCount := 0;
      lastDomWidth := domWidth;
      layout := [];
      containerHeight := None;
      pageInfo := [];
      isBusy := false;
      lastPage := None;
      lastScrollPosition := 0;
      scrollInfo := None;
    }

    /** `reflowGrids` up to the point where it waits for the clones' images:
        with no list or an empty one it does nothing; otherwise it bumps the
        counter, and then gives up when the geometry has no column. */
    method StartReflow(containerWidth: nat, cloneWidth: nat) returns (pass: Option<Pass>)
      requires list.Some? && |list.value| > 0 ==> Measurable(containerWidth, options)
      modifies this`reflowCount
      ensures list.None? || |list.value| == 0 ==> reflowCount == old(reflowCount) && pass == None
      ensures list.Some? && |list.value| > 0 ==> reflowCount == old(reflowCount) + 1
      ensures pass.Some? <==> list.Some? && |list.value| > 0 && ColumnInfo(containerWidth, options, cloneWidth).cols > 0
      ensures pass.Some? ==> pass.value == Pass(reflowCount, ColumnInfo(containerWidth, options, cloneWidth))
    {
      if list.None? || |list.value| == 0 {
        return None;
      }
      reflowCount := reflowCount + 1;
      var info := ColumnInfo(containerWidth, options, cloneWidth);
      if info.cols == 0 {
        return None;
      }
      pass := Some(Pass(reflowCount, info));
    }

    /** `mgOptionsChange`: normalise the caller's options, and reflow if the
        list has been read. */
    method ApplyOptions(caller: Overrides, windowWidth: int, containerWidth: nat, cloneWidth: nat) returns (pass: Option<Pass>)
      requires list.Some? && |list.value| > 0 ==> Measurable(containerWidth, Normalise(caller, windowWidth))
      modifies this`options, this`reflowCount
      ensures Valid() && options == Normalise(caller, windowWidth)
      ensures list.None? || |list.value| == 0 ==> reflowCount == old(reflowCount) && pass == None
      ensures list.Some? && |list.value| > 0 ==> reflowCount == old(reflowCount) + 1
      ensures pass.Some? <==> list.Some? && |list.value| > 0 && ColumnInfo(containerWidth, options, cloneWidth).cols > 0
      ensures pass.Some? ==> pass.value == Pass(reflowCount, ColumnInfo(containerWidth, options, cloneWidth))
    {
      options := Normalise(caller, windowWidth);
      pass := None;
      if list.Some? {
        pass := StartReflow(containerWidth, cloneWidth);
      }
    }

    /** `mgModelChange` as it runs at once: the grid is busy until the next pass commits. */
    method OnModelChange()
      modifies this`isBusy
      ensures isBusy
    {
      isBusy := true;
    }

    /** `getListElements`, once the deferred model change runs: the container's
        items (clones excluded) become the list. */
    method LoadItems(items: seq<Item>)
      modifies this`list
      ensures list == Some(items)
    {
      list := Some(items);
    }

    /** `onResize`: the grid becomes busy; a reflow is scheduled exactly when
        the container width differs from the last one seen, which is then
        recorded. */
    method OnResize(domWidth: nat) returns (scheduled: bool)
      modifies this`isBusy, this`lastDomWidth
      ensures isBusy && lastDomWidth == domWidth
      ensures scheduled <==> domWidth != old(lastDomWidth)
    {
      isBusy := true;
      if lastDomWidth == domWidth {
        return false;
      }
      lastDomWidth := domWidth;
      scheduled := true;
    }

    /** The debounced resize callback: with virtualisation on, every item is
        attached again before the reflow. */
    method ResizeSettled(containerWidth: nat, cloneWidth: nat) returns (pass: Option<Pass>)
      requires list.Some? && |list.value| > 0 ==> Measurable(containerWidth, options)
      modifies this`children, this`reflowCount
      ensures options.performantScroll ==> children == (if list.Some? then list.value else [])
      ensures !options.performantScroll ==> children == old(children)
      ensures list.None? || |list.value| == 0 ==> reflowCount == old(reflowCount)
      ensures list.Some? && |list.value| > 0 ==> reflowCount == old(reflowCount) + 1
      ensures pass.Some? <==> list.Some? && |list.value| > 0 && ColumnInfo(containerWidth, options, cloneWidth).cols > 0
      ensures pass.Some? ==> pass.value == Pass(reflowCount, ColumnInfo(containerWidth, options, cloneWidth))
    {
      if options.performantScroll {
        children := if list.Some? then list.value else [];
      }
      pass := StartReflow(containerWidth, cloneWidth);
    }

    /** `refreshDomElm`: record the offset; unless busy, find the page, and if
        it is not the page shown last, show the widened range of that page
        (when the page array has it). */
    method RefreshPage(scrollTop: int)
      requires Valid()
      requires !isBusy ==> list.Some? && scrollInfo.Some? && PageHeight(options, scrollInfo.value) > 0
      modifies this`lastScrollPosition, this`lastPage, this`children
      ensures lastScrollPosition == scrollTop
      ensures old(isBusy) ==> lastPage == old(lastPage) && children == old(children)
      ensures !isBusy ==>
        var page := CurrentPage(scrollTop, scrollInfo.value.startFrom, PageHeight(options, scrollInfo.value));
        && lastPage == Some(page)
        && children == (if old(lastPage) != Some(page) && page < |pageInfo| && pageInfo[page].Some?
                        then Slice(list.value, pageInfo[page].value.from, pageInfo[page].value.end)
                        else old(children))
    {
      lastScrollPosition := scrollTop;
      if isBusy {
        return;
      }
      var info := scrollInfo.value;
      var page := CurrentPage(scrollTop, info.startFrom, PageHeight(options, info));
      if lastPage == Some(page) {
        return;
      }
      lastPage := Some(page);
      if page < |pageInfo| && pageInfo[page].Some? {
        var r := pageInfo[page].value;
        children := Slice(list.value, r.from, r.end);
      }
    }

    /** The virtualisation tail of a committed pass: record the container
        measurements, forget the page shown, plan the pages, and, unless the
        widening throws, leave the busy state and show the page of the last
        scroll offset. When it throws, the unwidened page array stays and the
        grid stays as busy as it was. */
    method PlanPages(ps: seq<Placement>, height: nat, info: ScrollInfo)
      requires Valid() && list.Some? && PageHeight(options, info) > 0
      modifies this`scrollInfo, this`lastPage, this`pageInfo, this`isBusy, this`children, this`lastScrollPosition
      ensures scrollInfo == Some(info) && lastScrollPosition == old(lastScrollPosition)
      ensures var ph := PageHeight(options, info);
        match PageInfo(ps, height, ph)
        case Err(_) =>
          pageInfo == RawPages(ps, height, ph) && isBusy == old(isBusy) && lastPage == None && children == old(children)
        case Ok(w) =>
          var page := CurrentPage(lastScrollPosition, info.startFrom, ph);
          && pageInfo == Somes(w) && !isBusy && lastPage == Some(page)
          && children == (if page < |w| then Slice(list.value, w[page].from, w[page].end) else old(children))
    {
      scrollInfo := Some(info);
      lastPage := None;
      var raw := ScanPages(ps, height, PageHeight(options, info));
      match Expand(raw)
      case Err(_) =>
        pageInfo := raw;
      case Ok(w) =>
        pageInfo := Somes(w);
        isBusy := false;
        RefreshPage(lastScrollPosition);
    }

    /** The `onFullLoad` callback of a pass, given the clones' measured
        heights and the scroll container's measurements. The clones were
        made from the list as the pass started; the items listed now take
        the first heights, one each, so a list that shrank since is packed
        with the leading clones' heights. A stale pass changes nothing. A current one packs the items and writes their css and the
        container height, and with virtualisation on plans the pages. */
    method Commit(pass: Pass, heights: seq<nat>, info: ScrollInfo)
      requires Valid()
      requires pass.geometry.cols > 0
      requires list.Some? && |heights| >= |list.value|
      requires options.performantScroll ==> PageHeight(options, info) > 0
      modifies this`layout, this`containerHeight
      modifies this`scrollInfo, this`lastPage, this`pageInfo, this`isBusy, this`children, this`lastScrollPosition
      ensures pass.index < reflowCount ==> unchanged(this)
      ensures pass.index >= reflowCount ==>
        var cols, g := pass.geometry.cols, options.gutterSize;
        && layout == Styles(Placements(cols, heights[..|list.value|], g), pass.geometry.colWidth, g, options.direction)
        && containerHeight == Some(ContainerHeight(cols, heights[..|list.value|], g))
      ensures pass.index >= reflowCount && !options.performantScroll ==>
        && pageInfo == old(pageInfo) && isBusy == old(isBusy) && lastPage == old(lastPage)
        && scrollInfo == old(scrollInfo) && children == old(children) && lastScrollPosition == old(lastScrollPosition)
      ensures pass.index >= reflowCount && options.performantScroll ==>
        var ph := PageHeight(options, info);
        var ps := Placements(pass.geometry.cols, heights[..|list.value|], options.gutterSize);
        var height := ContainerHeight(pass.geometry.cols, heights[..|list.value|], options.gutterSize);
        && scrollInfo == Some(info) && lastScrollPosition == old(lastScrollPosition)
        && match PageInfo(ps, height, ph)
           case Err(_) =>
             pageInfo == RawPages(ps, height, ph) && isBusy == old(isBusy) && lastPage == None && children == old(children)
           case Ok(w) =>
             var page := CurrentPage(lastScrollPosition, info.startFrom, ph);
             && pageInfo == Somes(w) && !isBusy && lastPage == Some(page)
             && children == (if page < |w| then Slice(list.value, w[page].from, w[page].end) else old(children))
    {
      if pass.index < reflowCount {
        return;
      }
      var g := options.gutterSize;
      var hs := heights[..|list.value|];
      var ps, height := Pack(hs, pass.geometry.cols, g);
      layout := Styles(ps, pass.geometry.colWidth, g, options.direction);
      containerHeight := Some(height);
      if options.performantScroll {
        PlanPages(ps, height, info);
      }
    }
  }

  /** Two passes race: the second pass's images settle first and it commits;
      the first pass's images settle after that, and as the counter has moved
      past it, it commits nothing, so the layout stays the second pass's
      packing of the heights it measured. */
  method LatestPassWins(items: seq<Item>, firstHeights: seq<nat>, secondHeights: seq<nat>, width: nat, info: ScrollInfo)
    returns (grid: Grid, first: Pass, second: Pass)
    requires |items| > 0 && |firstHeights| == |items| && |secondHeights| == |items|
    requires width >= Defaults.gridWidth
    ensures grid.reflowCount == 2 && first.index == 1 && second.index == 2 && second.geometry.cols > 0
    ensures grid.layout == Styles(Placements(second.geometry.cols, secondHeights, Defaults.gutterSize),
                                  second.geometry.colWidth, Defaults.gutterSize, LeftToRight)
    ensures grid.containerHeight == Some(ContainerHeight(second.geometry.cols, secondHeights, Defaults.gutterSize))
  {
    grid := new Grid(width, NoOverrides, WideWindow);
    grid.LoadItems(items);
    Geometry.ColumnCount(width, grid.options, 0);
    var started := grid.StartReflow(width, 0);
    first := started.value;
    var latest := grid.StartReflow(width, 0);
    second := latest.value;
    assert grid.list == Some(items) && secondHeights[..|items|] == secondHeights;
    grid.Commit(second, secondHeights, info);
    assert grid.layout == Styles(Placements(second.geometry.cols, secondHeights, Defaults.gutterSize),
                                 second.geometry.colWidth, Defaults.gutterSize, LeftToRight);
    grid.Commit(first, firstHeights, info);
  }
}

=== FILE: images.dfy ===
/** `afterImageLoad`: which images of a container are waited for, and when
    the `onLoad` and `onFullLoad` callbacks run. The browser's load and error
    events and the zero-delay timer arrive as a sequence of `Event`s. */
module ImageSettle {

  /** What `afterImageLoad` reads of an `<img>`: whether its `src` is set, whether
      it has finished loading, and the caller's `ignoreCheck` verdict on it. */
  datatype Image = Image(hasSrc: bool, complete: bool, ignored: bool)

  /** An image with a `src` that is still loading and not ignored: `afterImageLoad`
      wraps it in a promise. */
  predicate Waits(img: Image): (w: bool)
    ensures w ==> img.hasSrc
    ensures img.complete || img.ignored ==> !w
  {
    img.hasSrc && !img.complete && !img.ignored
  }

  /** An image with a `src` that needs no waiting: `isLoaded` runs on it at once. */
  predicate ReadyNow(img: Image)
  {
    img.hasSrc && !Waits(img)
  }

  /** The indices below `n`, in order, of the images satisfying `Waits`
      (`wanted == true`) or `ReadyNow` (`wanted == false`). */
  function Where(imgs: seq<Image>, n: nat, wanted: bool): (r: seq<nat>)
    requires n <= |imgs|
    ensures forall k :: 0 <= k < |r| ==> r[k] < n
    ensures forall i :: 0 <= i < n ==> (i in r <==> (if wanted then Waits(imgs[i]) else ReadyNow(imgs[i])))
    ensures forall k, l :: 0 <= k < l < |r| ==> r[k] < r[l]
  {
    if n == 0 then []
    else
      var r' := Where(imgs, n - 1, wanted);
      if (if wanted then Waits(imgs[n - 1]) else ReadyNow(imgs[n - 1])) then r' + [n - 1] else r'
  }

  /** The `forEach` over the images: the indices whose promise is created, in
      order, and those handed to `isLoaded`. Images without a `src` are in
      neither list. */
  method Classify(imgs: seq<Image>) returns (pending: seq<nat>, ready: seq<nat>)
    ensures pending == Where(imgs, |imgs|, true)
    ensures ready == Where(imgs, |imgs|, false)
  {
    pending, ready := [], [];
    var i := 0;
    while i < |imgs|
      invariant i <= |imgs|
      invariant pending == Where(imgs, i, true)
      invariant ready == Where(imgs, i, false)
    {
      var img := imgs[i];
      if img.hasSrc {
        if !img.complete && !img.ignored {
          pending := pending + [i];
        } else {
          ready := ready + [i];
        }
      }
      i := i + 1;
    }
  }

  /** Something the browser delivers: image `i` loads or fails, or the
      zero-delay timer fires. */
  datatype Event = Load(i: nat) | Error(i: nat) | Tick

  /** The state of one `afterImageLoad` call: the images given an `onload`
      handler, those whose promise is still pending, whether the zero-delay
      timer is set, and whether `onFullLoad` has run. */
  datatype Batch = Batch(listening: set<nat>, waiting: set<nat>, tickArmed: bool, fired: bool)

  /** The callbacks one event runs. */
  datatype Calls = Calls(onLoad: nat, onFullLoad: nat)

  /** The state right after `afterImageLoad` returns. */
  function Begin(imgs: seq<Image>): (b: Batch)
    ensures b.tickArmed <==> forall i :: 0 <= i < |imgs| ==> !Waits(imgs[i])
    ensures forall i :: i in b.waiting <==> 0 <= i < |imgs| && Waits(imgs[i])
    ensures !b.fired
  {
    var p := set i | 0 <= i < |imgs| && Waits(imgs[i]);
    Batch(p, p, forall i :: 0 <= i < |imgs| ==> !Waits(imgs[i]), false)
  }

  /** One event. A load runs `onLoad` every time, and resolves the image's
      promise if it is pending; `Promise.all` settles, running `onFullLoad`,
      when its last promise resolves or its first one rejects, and only once.
      The timer runs `onFullLoad` when nothing was waited for. */
  function Step(b: Batch, e: Event): (r: (Batch, Calls))
    ensures r.0.listening == b.listening && r.0.waiting <= b.waiting
    ensures b.fired ==> r.0.fired && r.1.onFullLoad == 0
    ensures r.1.onFullLoad <= 1 && r.1.onLoad <= 1
    ensures e.Tick? ==> r.1.onLoad == 0 && r.0.waiting == b.waiting
  {
    match e
    case Load(i) =>
      if i !in b.listening then (b, Calls(0, 0))
      else if i !in b.waiting then (b, Calls(1, 0))
      else
        var w := b.waiting - {i};
        var full := !b.fired && w == {};
        (b.(waiting := w, fired := b.fired || full), Calls(1, if full then 1 else 0))
    case Error(i) =>
      if i !in b.listening || i !in b.waiting then (b, Calls(0, 0))
      else (b.(waiting := b.waiting - {i}, fired := true), Calls(0, if b.fired then 0 else 1))
    case Tick =>
      if !b.tickArmed then (b, Calls(0, 0))
      else (b.(tickArmed := false, fired := true), Calls(0, if b.fired then 0 else 1))
  }

  /** The state after a run of events, with the number of times each callback ran. */
  function Run(b: Batch, evs: seq<Event>): (r: (Batch, Calls))
    ensures r.0.listening == b.listening && r.0.waiting <= b.waiting
    ensures b.fired ==> r.0.fired && r.1.onFullLoad == 0
    ensures r.1.onLoad <= |evs|
    decreases |evs|
  {
    if |evs| == 0 then (b, Calls(0, 0))
    else
      var (b1, c1) := Step(b, evs[0]);
      var (b2, c2) := Run(b1, evs[1..]);
      (b2, Calls(c1.onLoad + c2.onLoad, c1.onFullLoad + c2.onFullLoad))
  }

  /** What every reachable state keeps: only watched images are pending, the
      timer is set only while nothing is pending, and a state that has not
      fired still has something that will fire it. */
  predicate Inv(b: Batch): (i: bool)
    ensures i && b.waiting != {} ==> b.listening != {} && !b.tickArmed
    ensures i && b.tickArmed ==> !b.fired
  {
    && b.waiting <= b.listening
    && (b.tickArmed ==> b.waiting == {} && b.listening == {} && !b.fired)
    && (!b.fired ==> b.tickArmed || b.waiting != {})
  }

  lemma BeginInv(imgs: seq<Image>)
    ensures Inv(Begin(imgs))
  {
  }

  /** A step keeps the invariant, and runs `onFullLoad` exactly when it moves
      the state from not fired to fired. */
  lemma StepInv(b: Batch, e: Event)
    requires Inv(b)
    ensures Inv(Step(b, e).0)
    ensures Step(b, e).1.onFullLoad == (if !b.fired && Step(b, e).0.fired then 1 else 0)
    ensures b.fired ==> Step(b, e).0.fired
  {
  }

  /** Over any run, `onFullLoad` runs once if the run fires the batch and
      never otherwise. */
  lemma {:induction false} RunCounts(b: Batch, evs: seq<Event>)
    requires Inv(b)
    ensures Inv(Run(b, evs).0)
    ensures Run(b, evs).1.onFullLoad == (if !b.fired && Run(b, evs).0.fired then 1 else 0)
    ensures b.fired ==> Run(b, evs).0.fired
    decreases |evs|
  {
    if |evs| > 0 {
      StepInv(b, evs[0]);
      RunCounts(Step(b, evs[0]).0, evs[1..]);
    }
  }

  /** `onFullLoad` never runs twice for one call, whatever the browser does. */
  lemma AtMostOnce(imgs: seq<Image>, evs: seq<Event>)
    ensures Run(Begin(imgs), evs).1.onFullLoad <= 1
  {
    BeginInv(imgs);
    RunCounts(Begin(imgs), evs);
  }

  /** A run in which the timer fires (when it is set) and every pending image
      loads or fails leaves the batch fired. */
  lemma {:induction false} RunFires(b: Batch, evs: seq<Event>)
    requires Inv(b)
    requires b.tickArmed ==> Tick in evs
    requires forall i :: i in b.waiting ==> Load(i) in evs || Error(i) in evs
    ensures Run(b, evs).0.fired
    decreases |evs|
  {
    if |evs| == 0 {
      assert !b.tickArmed;
      assert b.waiting == {};
    } else {
      var b1 := Step(b, evs[0]).0;
      StepInv(b, evs[0]);
      if b.fired {
        RunCounts(b1, evs[1..]);
      } else {
        assert b1.tickArmed ==> Tick in evs[1..] by {
          if b1.tickArmed {
            assert evs[0] != Tick;
            assert Tick in evs;
          }
        }
        forall i | i in b1.waiting
          ensures Load(i) in evs[1..] || Error(i) in evs[1..]
        {
          assert evs[0] != Load(i) && evs[0] != Error(i);
          assert Load(i) in evs || Error(i) in evs;
        }
        RunFires(b1, evs[1..]);
      }
    }
  }

  /** The batch settles: if the timer fires when nothing is waited for and
      every pending image loads or fails, `onFullLoad` runs exactly once. */
  lemma ExactlyOnce(imgs: seq<Image>, evs: seq<Event>)
    requires (forall i :: 0 <= i < |imgs| ==> !Waits(imgs[i])) ==> Tick in evs
    requires forall i :: 0 <= i < |imgs| && Waits(imgs[i]) ==> Load(i) in evs || Error(i) in evs
    ensures Run(Begin(imgs), evs).1.onFullLoad == 1
  {
    BeginInv(imgs);
    RunFires(Begin(imgs), evs);
    RunCounts(Begin(imgs), evs);
  }

  /** Until every pending image has loaded or one has failed, `onFullLoad`
      does not run: a run of loads of some of the pending images only never
      fires the batch. */
  lemma {:induction false} NoEarlyFire(b: Batch, evs: seq<Event>, j: nat)
    requires Inv(b) && !b.fired && j in b.waiting
    requires forall k :: 0 <= k < |evs| ==> evs[k].Load? && evs[k].i != j
    ensures !Run(b, evs).0.fired && j in Run(b, evs).0.waiting
    decreases |evs|
  {
    if |evs| > 0 {
      StepInv(b, evs[0]);
      var b1 := Step(b, evs[0]).0;
      assert j in b1.waiting && !b1.fired;
      NoEarlyFire(b1, evs[1..], j);
    }
  }

  /** One failing image settles the batch at once, while other images are
      still loading. */
  lemma ErrorSettlesEarly(b: Batch, i: nat, j: nat)
    requires Inv(b) && !b.fired && i in b.waiting && j in b.waiting && i != j
    ensures Step(b, Error(i)).1.onFullLoad == 1
    ensures j in Step(b, Error(i)).0.waiting
  {
  }

  /** Every load event of a watched image runs `onLoad`, even after its
      promise has resolved; other events never do. */
  lemma {:induction false} OnLoadPerLoad(b: Batch, evs: seq<Event>)
    requires Inv(b)
    ensures Run(b, evs).1.onLoad == LoadsOf(b.listening, evs)
    decreases |evs|
  {
    if |evs| > 0 {
      StepInv(b, evs[0]);
      assert Step(b, evs[0]).0.listening == b.listening;
      OnLoadPerLoad(Step(b, evs[0]).0, evs[1..]);
    }
  }

  /** The number of load events of images in `s`. */
  function LoadsOf(s: set<nat>, evs: seq<Event>): nat
    decreases |evs|
  {
    if |evs| == 0 then 0
    else (if evs[0].Load? && evs[0].i in s then 1 else 0) + LoadsOf(s, evs[1..])
  }
}

=== FILE: options.dfy ===
/** The options object of the directive (`MasonryGridOptions`) and the way a
    caller's partial options are merged over the defaults (`mgOptionsChange`). */
module GridOptions {
  import opened Wrappers

  /** `gridNo`: a fixed number of columns, or 'auto' (derive it from `gridWidth`). */
  datatype ColumnCount = AutoCount | FixedCount(n: nat)

  /** `pageSize`: how many viewport heights make one page, or 'auto'. */
  datatype PageSize = AutoSize | Screens(n: nat)

  /** `direction`: 'ltor' places column 0 at the left edge, 'rtol' at the right edge. */
  datatype Direction = LeftToRight | RightToLeft

  datatype Options = Options(
    gridWidth: nat,
    gutterSize: nat,
    gridNo: ColumnCount,
    direction: Direction,
    refreshOnImgLoad: bool,
    cssGrid: bool,
    performantScroll: bool,
    pageSize: PageSize,
    scrollContainer: string,
    infiniteScrollDelay: nat,
    infiniteScrollDistance: nat)

  /** What a caller binds to `mg-options`: any subset of the fields. */
  datatype Overrides = Overrides(
    gridWidth: Option<nat>,
    gutterSize: Option<nat>,
    gridNo: Option<ColumnCount>,
    direction: Option<Direction>,
    refreshOnImgLoad: Option<bool>,
    cssGrid: Option<bool>,
    performantScroll: Option<bool>,
    pageSize: Option<PageSize>,
    scrollContainer: Option<string>,
    infiniteScrollDelay: Option<nat>,
    infiniteScrollDistance: Option<nat>)

  const NoOverrides := Overrides(None, None, None, None, None, None, None, None, None, None, None)

  const Defaults := Options(300, 10, AutoCount, LeftToRight, true, false, false, AutoSize, "body", 3000, 100)

  /** Window width from which an 'auto' page size means two screens instead of three. */
  const WideWindow := 768

  /** Every field of `o`, given explicitly. */
  function AllOf(o: Options): Overrides
  {
    Overrides(Some(o.gridWidth), Some(o.gutterSize), Some(o.gridNo), Some(o.direction),
              Some(o.refreshOnImgLoad), Some(o.cssGrid), Some(o.performantScroll), Some(o.pageSize),
              Some(o.scrollContainer), Some(o.infiniteScrollDelay), Some(o.infiniteScrollDistance))
  }

  /** `Object.assign({}, base, caller)`: each field the caller gives wins over `base`. */
  function Assign(base: Options, caller: Overrides): (r: Options)
    ensures caller == NoOverrides ==> r == base
  {
    Options(
      GetOr(caller.gridWidth, base.gridWidth),
      GetOr(caller.gutterSize, base.gutterSize),
      GetOr(caller.gridNo, base.gridNo),
      GetOr(caller.direction, base.direction),
      GetOr(caller.refreshOnImgLoad, base.refreshOnImgLoad),
      GetOr(caller.cssGrid, base.cssGrid),
      GetOr(caller.performantScroll, base.performantScroll),
      GetOr(caller.pageSize, base.pageSize),
      GetOr(caller.scrollContainer, base.scrollContainer),
      GetOr(caller.infiniteScrollDelay, base.infiniteScrollDelay),
      GetOr(caller.infiniteScrollDistance, base.infiniteScrollDistance))
  }

  /** The state every options object is in once `mgOptionsChange` is done with it. */
  predicate Normalised(o: Options)
  {
    o.pageSize.Screens? && (o.cssGrid ==> o.gutterSize == 0)
  }

  /** The page size an 'auto' setting resolves to for a window of the given width. */
  function AutoPageSize(windowWidth: int): (n: nat)
    ensures n == 2 || n == 3
    ensures n == 2 <==> windowWidth >= WideWindow
  {
    if windowWidth >= WideWindow then 2 else 3
  }

  /** `mgOptionsChange`: merge over the defaults, force a zero gutter in CSS-grid
      mode, and resolve an 'auto' page size against the window width. */
  function Normalise(caller: Overrides, windowWidth: int): (r: Options)
    ensures Normalised(r)
    ensures r.cssGrid == GetOr(caller.cssGrid, Defaults.cssGrid)
    ensures r.cssGrid ==> r.gutterSize == 0
    ensures !r.cssGrid ==> r.gutterSize == GetOr(caller.gutterSize, Defaults.gutterSize)
    ensures GetOr(caller.pageSize, Defaults.pageSize).AutoSize? ==> r.pageSize == Screens(AutoPageSize(windowWidth))
    ensures GetOr(caller.pageSize, Defaults.pageSize).Screens? ==> r.pageSize == GetOr(caller.pageSize, Defaults.pageSize)
    // every other field is the caller's where given and the default otherwise
    ensures r.(gutterSize := 0, pageSize := AutoSize) == Assign(Defaults, caller).(gutterSize := 0, pageSize := AutoSize)
  {
    var merged := Assign(Defaults, caller);
    var gutter := if merged.cssGrid then 0 else merged.gutterSize;
    var pages := if merged.pageSize.AutoSize? then Screens(AutoPageSize(windowWidth)) else merged.pageSize;
    merged.(gutterSize := gutter, pageSize := pages)
  }

  /** Handing already normalised options back to `mgOptionsChange` changes
      nothing, whatever the window width is the second time. */
  lemma NormaliseIdempotent(caller: Overrides, windowWidth: int, laterWidth: int)
    ensures Normalise(AllOf(Normalise(caller, windowWidth)), laterWidth) == Normalise(caller, windowWidth)
  {
  }

  /** A caller that gives every field gets exactly its own options back, except
      for the two normalisations. */
  lemma FullOverridesWin(o: Options, windowWidth: int)
    requires Normalised(o)
    ensures Normalise(AllOf(o), windowWidth) == o
  {
  }
}

=== FILE: packing.dfy ===
/** Greedy shortest-column packing: the body of the `onFullLoad` callback of
    `reflowGrids`, which walks the items in order and drops each one into the
    first of the lowest columns. */
module Packing {
  import opened GridOptions
  import opened Geometry

  /** Where one item lands: its column and its vertical extent `top .. bottom`
      (`bottom == top + height`; the gutter below it is not part of it). */
  datatype Placement = Placement(col: nat, top: nat, bottom: nat)

  /** The least of `s[0 .. n - 1]`. */
  function MinPrefix(s: seq<nat>, n: nat): (m: nat)
    requires 0 < n <= |s|
    ensures forall i :: 0 <= i < n ==> m <= s[i]
    ensures exists i :: 0 <= i < n && s[i] == m
    decreases n
  {
    if n == 1 then s[0]
    else
      var m' := MinPrefix(s, n - 1);
      if s[n - 1] < m' then s[n - 1] else m'
  }

  /** The greatest of `s[0 .. n - 1]`. */
  function MaxPrefix(s: seq<nat>, n: nat): (m: nat)
    requires 0 < n <= |s|
    ensures forall i :: 0 <= i < n ==> s[i] <= m
    ensures exists i :: 0 <= i < n && s[i] == m
    decreases n
  {
    if n == 1 then s[0]
    else
      var m' := MaxPrefix(s, n - 1);
      if s[n - 1] > m' then s[n - 1] else m'
  }

  /** `Math.min(...s)`. */
  function MinOf(s: seq<nat>): (m: nat)
    requires |s| > 0
    ensures m in s
    ensures forall i :: 0 <= i < |s| ==> m <= s[i]
  {
    MinPrefix(s, |s|)
  }

  /** `Math.max(...s)`. */
  function MaxOf(s: seq<nat>): (m: nat)
    requires |s| > 0
    ensures m in s
    ensures forall i :: 0 <= i < |s| ==> s[i] <= m
  {
    MaxPrefix(s, |s|)
  }

  /** The first index from `k` on holding `x`, or -1. */
  function IndexFrom(s: seq<nat>, x: nat, k: nat): (i: int)
    requires k <= |s|
    ensures -1 <= i < |s|
    ensures i >= 0 ==> k <= i && s[i] == x && forall j :: k <= j < i ==> s[j] != x
    ensures i == -1 ==> forall j :: k <= j < |s| ==> s[j] != x
    decreases |s| - k
  {
    if k == |s| then -1
    else if s[k] == x then k
    else IndexFrom(s, x, k + 1)
  }

  /** `s.indexOf(x)`: the first index holding `x`, or -1. */
  function IndexOf(s: seq<nat>, x: nat): (i: int)
    ensures -1 <= i < |s|
    ensures i >= 0 ==> s[i] == x && forall j :: 0 <= j < i ==> s[j] != x
    ensures i == -1 ==> x !in s
  {
    IndexFrom(s, x, 0)
  }

  /** The column the next item goes into: the lowest index among the columns
      whose bottom is minimal. */
  function ShortestColumn(bottoms: seq<nat>): (c: nat)
    requires |bottoms| > 0
    ensures c < |bottoms|
    ensures bottoms[c] == MinOf(bottoms)
    ensures forall j :: 0 <= j < c ==> bottoms[j] > bottoms[c]
  {
    IndexOf(bottoms, MinOf(bottoms))
  }

  /** Where the next item of height `h` lands, given the current column bottoms. */
  function Next(bottoms: seq<nat>, h: nat): (p: Placement)
    requires |bottoms| > 0
    ensures p.col < |bottoms| && p.top == bottoms[p.col] && p.bottom == p.top + h
  {
    var c := ShortestColumn(bottoms);
    Placement(c, bottoms[c], bottoms[c] + h)
  }

  /** The sum of `s[0 .. n - 1]`. */
  function Total(s: seq<nat>, n: nat): nat
    requires n <= |s|
    decreases n
  {
    if n == 0 then 0 else Total(s, n - 1) + s[n - 1]
  }

  /** The heights of the first `n` items with one gutter below each. */
  function Stacked(hs: seq<nat>, g: nat, n: nat): nat
    requires n <= |hs|
    decreases n
  {
    if n == 0 then 0 else Stacked(hs, g, n - 1) + hs[n - 1] + g
  }

  lemma {:induction false} TotalZeros(s: seq<nat>, n: nat)
    requires n <= |s| && forall i :: 0 <= i < |s| ==> s[i] == 0
    ensures Total(s, n) == 0
    decreases n
  {
    if n > 0 {
      TotalZeros(s, n - 1);
    }
  }

  lemma {:induction false} TotalUpdate(s: seq<nat>, c: nat, v: nat, n: nat)
    requires c < |s| && n <= |s|
    ensures Total(s[c := v], n) + (if c < n then s[c] else 0) == Total(s, n) + (if c < n then v else 0)
    decreases n
  {
    if n > 0 {
      TotalUpdate(s, c, v, n - 1);
    }
  }

  /** Raising one entry by `d` raises the total by `d`. */
  lemma StackOne(s: seq<nat>, c: nat, d: nat)
    requires c < |s|
    ensures Total(s[c := s[c] + d], |s|) == Total(s, |s|) + d
  {
    TotalUpdate(s, c, s[c] + d, |s|);
  }

  /** `lastRowBottom` once the first `n` items, of heights `hs`, have been
      placed in `cols` columns with gutter `g`. */
  function BottomsUpTo(cols: nat, hs: seq<nat>, g: nat, n: nat): (b: seq<nat>)
    requires cols > 0 && n <= |hs|
    ensures |b| == cols
    decreases n
  {
    if n == 0 then seq(cols, _ => 0)
    else
      var prev := BottomsUpTo(cols, hs, g, n - 1);
      var p := Next(prev, hs[n - 1]);
      prev[p.col := p.bottom + g]
  }

  /** The placements of the first `n` items, in item order. */
  function PlacementsUpTo(cols: nat, hs: seq<nat>, g: nat, n: nat): (ps: seq<Placement>)
    requires cols > 0 && n <= |hs|
    ensures |ps| == n
    decreases n
  {
    if n == 0 then []
    else PlacementsUpTo(cols, hs, g, n - 1) + [Next(BottomsUpTo(cols, hs, g, n - 1), hs[n - 1])]
  }

  /** The final column bottoms. */
  function Bottoms(cols: nat, hs: seq<nat>, g: nat): (b: seq<nat>)
    requires cols > 0
    ensures |b| == cols
  {
    BottomsUpTo(cols, hs, g, |hs|)
  }

  /** The placement of every item, in item order. */
  function Placements(cols: nat, hs: seq<nat>, g: nat): (ps: seq<Placement>)
    requires cols > 0
    ensures |ps| == |hs|
  {
    PlacementsUpTo(cols, hs, g, |hs|)
  }

  /** The container height `reflowGrids` writes: the deepest column bottom. */
  function ContainerHeight(cols: nat, hs: seq<nat>, g: nat): (h: nat)
    requires cols > 0
    ensures h in Bottoms(cols, hs, g)
    ensures forall c :: 0 <= c < cols ==> Bottoms(cols, hs, g)[c] <= h
  {
    MaxOf(Bottoms(cols, hs, g))
  }

  /** One step of the packing loop: with `top` the minimum of the column
      bottoms and `col` the first column holding it, item `k` is placed at
      `top` in `col`, and that column's bottom moves to top + height + gutter. */
  lemma PackStepAt(cols: nat, hs: seq<nat>, g: nat, k: nat, top: nat, col: nat)
    requires cols > 0 && k < |hs|
    requires top == MinOf(BottomsUpTo(cols, hs, g, k))
    requires col == IndexOf(BottomsUpTo(cols, hs, g, k), top)
    ensures BottomsUpTo(cols, hs, g, k + 1) == BottomsUpTo(cols, hs, g, k)[col := top + hs[k] + g]
    ensures PlacementsUpTo(cols, hs, g, k + 1) == PlacementsUpTo(cols, hs, g, k) + [Placement(col, top, top + hs[k])]
  {
    assert Next(BottomsUpTo(cols, hs, g, k), hs[k]) == Placement(col, top, top + hs[k]);
  }

  /** Item `k` is placed from the column bottoms left by the items before it. */
  lemma {:induction false} PlacementAt(cols: nat, hs: seq<nat>, g: nat, n: nat, k: nat)
    requires cols > 0 && k < n <= |hs|
    ensures PlacementsUpTo(cols, hs, g, n)[k] == Next(BottomsUpTo(cols, hs, g, k), hs[k])
    decreases n
  {
    var ps := PlacementsUpTo(cols, hs, g, n);
    var front := PlacementsUpTo(cols, hs, g, n - 1);
    assert ps == front + [Next(BottomsUpTo(cols, hs, g, n - 1), hs[n - 1])];
    if k < n - 1 {
      PlacementAt(cols, hs, g, n - 1, k);
      assert ps[k] == front[k];
    } else {
      assert k == n - 1;
    }
  }

  /** The rule for one item, on the column bottoms alone: the first column
      at the minimum is chosen. */
  lemma NextRule(b: seq<nat>, h: nat)
    requires |b| > 0
    ensures var p := Next(b, h);
            && p.top == MinOf(b)
            && (forall j :: 0 <= j < p.col ==> b[j] > p.top)
  {
  }

  /** The placement rule. Item `k`'s top is the minimum of the column bottoms
      before it, its column is the first column at that minimum, and its
      bottom is its top plus its height. */
  lemma {:induction false} PlacementRule(cols: nat, hs: seq<nat>, g: nat, k: nat)
    requires cols > 0 && k < |hs|
    ensures var b := BottomsUpTo(cols, hs, g, k);
            var p := Placements(cols, hs, g)[k];
            && p.col < cols
            && p.top == MinOf(b) == b[p.col]
            && (forall j :: 0 <= j < p.col ==> b[j] > p.top)
            && p.bottom == p.top + hs[k]
  {
    PlacementAt(cols, hs, g, |hs|, k);
    NextRule(BottomsUpTo(cols, hs, g, k), hs[k]);
  }

  /** Placing item `n - 1` moves the bottom of its column, and no other, to
      the item's bottom plus the gutter. */
  lemma {:induction false} ColumnRaised(cols: nat, hs: seq<nat>, g: nat, n: nat)
    requires cols > 0 && 0 < n <= |hs|
    ensures var p := Placements(cols, hs, g)[n - 1];
            && p.col < cols
            && BottomsUpTo(cols, hs, g, n) == BottomsUpTo(cols, hs, g, n - 1)[p.col := p.bottom + g]
  {
    PlacementAt(cols, hs, g, |hs|, n - 1);
  }

  /** No item leaves a gap above it: the column bottoms add up to exactly the
      placed items' heights plus one gutter each. */
  lemma {:induction false} NoGaps(cols: nat, hs: seq<nat>, g: nat, n: nat)
    requires cols > 0 && n <= |hs|
    ensures Total(BottomsUpTo(cols, hs, g, n), cols) == Stacked(hs, g, n)
    decreases n
  {
    if n == 0 {
      TotalZeros(BottomsUpTo(cols, hs, g, 0), cols);
    } else {
      NoGaps(cols, hs, g, n - 1);
      StackItem(cols, hs, g, n);
    }
  }

  /** Placing item `n - 1` raises the total of the column bottoms by its
      height plus a gutter, as much as it raises the stacked heights. */
  lemma StackItem(cols: nat, hs: seq<nat>, g: nat, n: nat)
    requires cols > 0 && 0 < n <= |hs|
    ensures Total(BottomsUpTo(cols, hs, g, n), cols) == Total(BottomsUpTo(cols, hs, g, n - 1), cols) + hs[n - 1] + g
    ensures Stacked(hs, g, n) == Stacked(hs, g, n - 1) + hs[n - 1] + g
  {
    var prev := BottomsUpTo(cols, hs, g, n - 1);
    var c := Next(prev, hs[n - 1]).col;
    assert BottomsUpTo(cols, hs, g, n) == prev[c := prev[c] + (hs[n - 1] + g)];
    StackOne(prev, c, hs[n - 1] + g);
  }

  /** No column bottom ever moves up: the bottoms after the first `k` items
      lie above (or at) the bottoms after the first `n`. */
  lemma {:induction false} BottomsGrow(cols: nat, hs: seq<nat>, g: nat, k: nat, n: nat)
    requires cols > 0 && k <= n <= |hs|
    ensures forall c :: 0 <= c < cols ==> BottomsUpTo(cols, hs, g, k)[c] <= BottomsUpTo(cols, hs, g, n)[c]
    decreases n
  {
    if k < n {
      BottomsGrow(cols, hs, g, k, n - 1);
      var prev := BottomsUpTo(cols, hs, g, n - 1);
      var p := Next(prev, hs[n - 1]);
      assert BottomsUpTo(cols, hs, g, n) == prev[p.col := p.bottom + g];
      NextRule(prev, hs[n - 1]);
    }
  }

  lemma MinOfPointwise(a: seq<nat>, b: seq<nat>)
    requires |a| == |b| > 0
    requires forall i :: 0 <= i < |a| ==> a[i] <= b[i]
    ensures MinOf(a) <= MinOf(b)
  {
    var c := ShortestColumn(b);
  }

  /** Tops never decrease in item order. */
  predicate SortedTops(ps: seq<Placement>)
  {
    forall i, j :: 0 <= i <= j < |ps| ==> ps[i].top <= ps[j].top
  }

  /** The items come out in order of their tops: each item is placed no higher
      than the one before it. */
  lemma {:induction false} PlacementsSorted(cols: nat, hs: seq<nat>, g: nat)
    requires cols > 0
    ensures SortedTops(Placements(cols, hs, g))
  {
    var ps := Placements(cols, hs, g);
    forall i, j | 0 <= i <= j < |ps| ensures ps[i].top <= ps[j].top {
      PlacementRule(cols, hs, g, i);
      PlacementRule(cols, hs, g, j);
      BottomsGrow(cols, hs, g, i, j);
      MinOfPointwise(BottomsUpTo(cols, hs, g, i), BottomsUpTo(cols, hs, g, j));
    }
  }

  /** Two items in the same column never overlap: the later one starts at
      least one gutter below the earlier one's bottom. */
  lemma {:induction false} SameColumnApart(cols: nat, hs: seq<nat>, g: nat, i: nat, j: nat)
    requires cols > 0 && i < j < |hs|
    requires Placements(cols, hs, g)[i].col == Placements(cols, hs, g)[j].col
    ensures Placements(cols, hs, g)[i].bottom + g <= Placements(cols, hs, g)[j].top
  {
    var pi, pj := Placements(cols, hs, g)[i], Placements(cols, hs, g)[j];
    ColumnRaised(cols, hs, g, i + 1);
    assert BottomsUpTo(cols, hs, g, i + 1)[pi.col] == pi.bottom + g;
    PlacementRule(cols, hs, g, j);
    assert BottomsUpTo(cols, hs, g, j)[pj.col] == pj.top;
    BottomsGrow(cols, hs, g, i + 1, j);
  }

  /** The container is tall enough for every item and the gutter below it. */
  lemma {:induction false} ContainerHoldsItems(cols: nat, hs: seq<nat>, g: nat, k: nat)
    requires cols > 0 && k < |hs|
    ensures Placements(cols, hs, g)[k].bottom + g <= ContainerHeight(cols, hs, g)
  {
    var p := Placements(cols, hs, g)[k];
    ColumnRaised(cols, hs, g, k + 1);
    assert BottomsUpTo(cols, hs, g, k + 1)[p.col] == p.bottom + g;
    BottomsGrow(cols, hs, g, k + 1, |hs|);
    assert p.bottom + g <= Bottoms(cols, hs, g)[p.col];
  }

  /** Two columns, gutter 10, heights 300, 50 and 10: the first item takes
      column 0, the second the then lower column 1, and the third goes below
      it in column 1; the container is as tall as column 0. */
  lemma ThreeItemPacking()
    ensures Placements(2, [300, 50, 10], 10) == [Placement(0, 0, 300), Placement(1, 0, 50), Placement(1, 60, 70)]
    ensures ContainerHeight(2, [300, 50, 10], 10) == 310
  {
    var hs: seq<nat> := [300, 50, 10];
    var b0 := BottomsUpTo(2, hs, 10, 0);
    assert b0 == [0, 0];
    assert MinOf(b0) == 0 && IndexOf(b0, 0) == 0;
    PackStepAt(2, hs, 10, 0, 0, 0);
    var b1 := BottomsUpTo(2, hs, 10, 1);
    assert b1 == [310, 0];
    assert MinOf(b1) == 0 && IndexOf(b1, 0) == 1;
    PackStepAt(2, hs, 10, 1, 0, 1);
    var b2 := BottomsUpTo(2, hs, 10, 2);
    assert b2 == [310, 60];
    assert MinOf(b2) == 60 && IndexOf(b2, 60) == 1;
    PackStepAt(2, hs, 10, 2, 60, 1);
    assert BottomsUpTo(2, hs, 10, 3) == [310, 80];
    assert MaxOf([310, 80]) == 310;
  }

  /** How `reflowGrids` writes one placement: `top`, the column `width`, and the
      offset `posX` as `left` or, for 'rtol', as `right`. */
  datatype Side = Left | Right
  datatype ItemStyle = ItemStyle(top: nat, side: Side, offset: int, width: int)

  function StyleOf(p: Placement, colWidth: int, g: nat, dir: Direction): (s: ItemStyle)
    ensures s.side == Right <==> dir == RightToLeft
    ensures s.top == p.top && s.width == colWidth
  {
    ItemStyle(p.top, if dir == RightToLeft then Right else Left, Offset(p.col, colWidth, g), colWidth)
  }

  /** `Math.min(...a)` over the column bottoms. */
  method MinOfArray(a: array<nat>) returns (m: nat)
    requires a.Length > 0
    ensures m == MinOf(a[..])
  {
    m := a[0];
    var i := 1;
    while i < a.Length
      invariant 1 <= i <= a.Length
      invariant m == MinPrefix(a[..], i)
    {
      if a[i] < m {
        m := a[i];
      }
      i := i + 1;
    }
  }

  /** `Math.max(...a)` over the column bottoms. */
  method MaxOfArray(a: array<nat>) returns (m: nat)
    requires a.Length > 0
    ensures m == MaxOf(a[..])
  {
    m := a[0];
    var i := 1;
    while i < a.Length
      invariant 1 <= i <= a.Length
      invariant m == MaxPrefix(a[..], i)
    {
      if a[i] > m {
        m := a[i];
      }
      i := i + 1;
    }
  }

  /** `a.indexOf(x)` for a value the array holds. */
  method IndexOfArray(a: array<nat>, x: nat) returns (i: nat)
    requires x in a[..]
    ensures i == IndexOf(a[..], x)
  {
    i := 0;
    while a[i] != x
      invariant 0 <= i < a.Length
      invariant forall j :: 0 <= j < i ==> a[j] != x
      decreases a.Length - i
    {
      i := i + 1;
    }
  }

  /** The packing loop: place every item with `lastRowBottom` held in an array,
      then take the container height from the final column bottoms. */
  method Pack(heights: seq<nat>, cols: nat, g: nat) returns (ps: seq<Placement>, containerHeight: nat)
    requires cols > 0
    ensures ps == Placements(cols, heights, g)
    ensures containerHeight == ContainerHeight(cols, heights, g)
  {
    var lastRowBottom := new nat[cols](_ => 0);
    ps := [];
    var i := 0;
    while i < |heights|
      invariant 0 <= i <= |heights|
      invariant lastRowBottom[..] == BottomsUpTo(cols, heights, g, i)
      invariant ps == PlacementsUpTo(cols, heights, g, i)
    {
      ghost var before := lastRowBottom[..];
      var top := MinOfArray(lastRowBottom);
      var col := IndexOfArray(lastRowBottom, top);
      var bottom: nat := top + heights[i] + g;
      lastRowBottom[col] := bottom;
      assert lastRowBottom[..] == before[col := bottom];
      PackStepAt(cols, heights, g, i, top, col);
      ps := ps + [Placement(col, top, top + heights[i])];
      i := i + 1;
    }
    containerHeight := MaxOfArray(lastRowBottom);
  }
}

=== FILE: paging.dfy ===
/** The scroll virtualisation planner: `calculatePageInfo` cuts the packed
    items into pages one scroll viewport (times `pageSize`) high and widens
    each page by its neighbours, and `refreshDomElm` maps a scroll offset to a
    page. */
module Paging {
  import opened Wrappers
  import opened Packing
  import opened Geometry

  /** A run of item indices `from .. end - 1`. `end` is the directive's `to + 1`;
      the page-0 entry starts out as `{from: 0}` with no `to`, which `end == 0`
      stands for (`slice(0, NaN)` and `slice(0, 0)` are both empty). */
  datatype IndexRange = IndexRange(from: nat, end: nat)

  /** Reading a page of the widened array whose neighbour is a hole throws. */
  datatype PageError = UndefinedPage

  /** `Math.ceil(height / pageHeight)`. */
  function TotalPages(height: nat, pageHeight: nat): (n: nat)
    requires pageHeight > 0
    ensures n * pageHeight >= height
    ensures n > 0 ==> (n - 1) * pageHeight < height
  {
    var n := (height + pageHeight - 1) / pageHeight;
    assert n * pageHeight <= height + pageHeight - 1 < n * pageHeight + pageHeight;
    n
  }

  /** An item is recorded in the page `lo .. hi` unless it ends above it or starts
      below it; both ends are inclusive. */
  predicate Meets(p: Placement, lo: int, hi: int): (m: bool)
    ensures lo <= hi && p.top <= lo <= p.bottom ==> m
    ensures lo <= hi && p.top <= hi <= p.bottom ==> m
    ensures m ==> p.top <= hi && lo <= p.bottom
  {
    lo <= p.bottom && p.top <= hi
  }

  /** Record item `k` in a page entry: the first record sets `from`, every record sets `to`. */
  function Record(acc: Option<IndexRange>, k: nat): (r: IndexRange)
    ensures r.end == k + 1
    ensures r.from == if acc.Some? then acc.value.from else k
  {
    match acc
    case None => IndexRange(k, k + 1)
    case Some(r) => IndexRange(r.from, k + 1)
  }

  /** The inner loop of `calculatePageInfo` from item `k` on, for the page
      `lo .. hi`: skip items that end above the page, stop at the first item
      that starts below it, record the others. */
  function Scan(pos: seq<Placement>, k: nat, lo: int, hi: int, acc: Option<IndexRange>): (r: Option<IndexRange>)
    requires k <= |pos|
    ensures acc.Some? ==> r.Some? && r.value.from == acc.value.from
    ensures acc.None? && r.Some? ==> k <= r.value.from
    decreases |pos| - k
  {
    if k == |pos| then acc
    else if pos[k].top > hi then acc
    else if pos[k].bottom < lo then Scan(pos, k + 1, lo, hi, acc)
    else Scan(pos, k + 1, lo, hi, Some(Record(acc, k)))
  }

  /** Entry `p` of a JavaScript array with holes; past the end reads as a hole. */
  function SlotAt(raw: seq<Option<IndexRange>>, p: nat): Option<IndexRange>
  {
    if p < |raw| then raw[p] else None
  }

  /** `raw[p] = r`, growing the array (with holes) when `p` is past its end. */
  function Store(raw: seq<Option<IndexRange>>, p: nat, r: IndexRange): (s: seq<Option<IndexRange>>)
    ensures |s| == if p < |raw| then |raw| else p + 1
    ensures s[p] == Some(r)
    ensures forall i :: 0 <= i < |raw| && i != p ==> s[i] == raw[i]
    ensures forall i :: |raw| <= i < p ==> s[i] == None
  {
    if p < |raw| then raw[p := Some(r)]
    else raw + seq(p - |raw|, _ => None) + [Some(r)]
  }

  /** One pass of the outer loop: scan page `p` and store its entry if it got one. */
  function ScanPage(raw: seq<Option<IndexRange>>, pos: seq<Placement>, pageHeight: nat, p: nat): (s: seq<Option<IndexRange>>)
    ensures |raw| <= |s| <= if p < |raw| then |raw| else p + 1
    ensures forall j :: 0 <= j < |raw| && j != p ==> s[j] == raw[j]
  {
    match Scan(pos, 0, p * pageHeight, (p + 1) * pageHeight, SlotAt(raw, p))
    case None => raw
    case Some(r) => Store(raw, p, r)
  }

  /** The page array after pages `0 .. n - 1` have been scanned. */
  function RawPagesUpTo(pos: seq<Placement>, pageHeight: nat, n: nat): (raw: seq<Option<IndexRange>>)
    ensures 0 < |raw| <= if n == 0 then 1 else n
    decreases n
  {
    if n == 0 then [Some(IndexRange(0, 0))]
    else ScanPage(RawPagesUpTo(pos, pageHeight, n - 1), pos, pageHeight, n - 1)
  }

  /** `scrollNamespace.pageInfo` as the nested loops of `calculatePageInfo` leave it. */
  function RawPages(pos: seq<Placement>, height: nat, pageHeight: nat): (raw: seq<Option<IndexRange>>)
    requires pageHeight > 0
    ensures 0 < |raw| && (height > 0 ==> |raw| <= TotalPages(height, pageHeight))
  {
    RawPagesUpTo(pos, pageHeight, TotalPages(height, pageHeight))
  }

  /** The nested loops of `calculatePageInfo`, with the early `break`. The
      entry of the page being scanned is kept in `slot` and stored when the
      page is done, where `calculatePageInfo` mutates the stored object in place. */
  method ScanPages(pos: seq<Placement>, height: nat, pageHeight: nat) returns (pageInfo: seq<Option<IndexRange>>)
    requires pageHeight > 0
    ensures pageInfo == RawPages(pos, height, pageHeight)
  {
    pageInfo := [Some(IndexRange(0, 0))];
    var totalPages := TotalPages(height, pageHeight);
    var pageNo := 0;
    while pageNo < totalPages
      invariant pageNo <= totalPages
      invariant pageInfo == RawPagesUpTo(pos, pageHeight, pageNo)
    {
      var from, to := pageNo * pageHeight, (pageNo + 1) * pageHeight;
      var slot := SlotAt(pageInfo, pageNo);
      var idx := 0;
      while idx < |pos|
        invariant idx <= |pos|
        invariant Scan(pos, 0, from, to, SlotAt(pageInfo, pageNo)) == Scan(pos, idx, from, to, slot)
      {
        var elmInfo := pos[idx];
        if elmInfo.bottom < from || elmInfo.top > to {
          if elmInfo.top > to {
            break;
          }
        } else {
          slot := Some(Record(slot, idx));
        }
        idx := idx + 1;
      }
      if slot.Some? {
        pageInfo := Store(pageInfo, pageNo, slot.value);
      }
      pageNo := pageNo + 1;
    }
  }

  predicate NoHoles(raw: seq<Option<IndexRange>>)
  {
    forall i :: 0 <= i < |raw| ==> raw[i].Some?
  }

  function Below(i: nat): nat { if i > 0 then i - 1 else 0 }
  function Above(i: nat, n: nat): nat { if i + 1 < n then i + 1 else i }

  /** The widening `map` as `calculatePageInfo` writes it: page `i` runs from
      the `from` of page i-1 to the `to` of page i+1 (clamped at both ends).
      It throws when the array has a hole; on every array the page loops
      build that is exactly when a neighbour the `map` reads is a hole
      (`MapThrows`, by `RawEnds` and `SameThrow`). */
  function ExpandAsWritten(raw: seq<Option<IndexRange>>): (r: Result<seq<IndexRange>, PageError>)
    ensures r.Err? <==> !NoHoles(raw)
    ensures r.Ok? ==> |r.value| == |raw|
  {
    if !NoHoles(raw) then Err(UndefinedPage)
    else Ok(seq(|raw|, i requires 0 <= i < |raw| =>
      IndexRange(raw[Below(i)].value.from, raw[Above(i, |raw|)].value.end)))
  }

  /** The `map` visits only the defined entries, and throws when one of them
      has a hole as a clamped neighbour. */
  predicate MapThrows(raw: seq<Option<IndexRange>>)
  {
    exists i :: 0 <= i < |raw| && raw[i].Some? && (raw[Below(i)].None? || raw[Above(i, |raw|)].None?)
  }

  /** The page loops leave the first and the last entry defined: page 0
      starts as `{from: 0}`, and the array only grows by storing an entry. */
  lemma {:induction false} RawEnds(pos: seq<Placement>, pageHeight: nat, n: nat)
    ensures var raw := RawPagesUpTo(pos, pageHeight, n);
            raw[0].Some? && raw[|raw| - 1].Some?
    decreases n
  {
    if n > 0 {
      var prev := RawPagesUpTo(pos, pageHeight, n - 1);
      RawEnds(pos, pageHeight, n - 1);
      var p := n - 1;
      match Scan(pos, 0, p * pageHeight, (p + 1) * pageHeight, SlotAt(prev, p))
      case None =>
      case Some(r) =>
        var s := Store(prev, p, r);
        assert s == RawPagesUpTo(pos, pageHeight, n);
        assert s[0].Some?;
        assert s[|s| - 1].Some?;
    }
  }

  /** Below a hole past a defined entry 0 there is a defined entry right next
      to a hole. */
  lemma {:induction false} HoleEdge(raw: seq<Option<IndexRange>>, h: nat)
    requires 0 < h < |raw| && raw[0].Some? && raw[h].None?
    ensures exists i :: 0 < i <= h && raw[i].None? && raw[i - 1].Some?
    decreases h
  {
    if raw[h - 1].None? {
      HoleEdge(raw, h - 1);
    }
  }

  /** With both ends defined, the `map` throws exactly when the array has a hole. */
  lemma SameThrow(raw: seq<Option<IndexRange>>)
    requires |raw| > 0 && raw[0].Some? && raw[|raw| - 1].Some?
    ensures MapThrows(raw) <==> !NoHoles(raw)
  {
    if !NoHoles(raw) {
      var h :| 0 <= h < |raw| && raw[h].None?;
      HoleEdge(raw, h);
      var i :| 0 < i <= h && raw[i].None? && raw[i - 1].Some?;
      assert Above(i - 1, |raw|) == i;
    }
  }

  function Min3(a: nat, b: nat, c: nat): nat { if a <= b && a <= c then a else if b <= c then b else c }
  function Max3(a: nat, b: nat, c: nat): nat { if a >= b && a >= c then a else if b >= c then b else c }

  /** The widening with every item of pages i-1, i and i+1 in page i's range. */
  function Expand(raw: seq<Option<IndexRange>>): (r: Result<seq<IndexRange>, PageError>)
    ensures r.Err? <==> !NoHoles(raw)
    ensures r.Ok? ==> |r.value| == |raw|
    ensures r.Ok? ==> forall i, j :: 0 <= i < |raw| && 0 <= j < |raw| && i - 1 <= j <= i + 1 ==>
                        r.value[i].from <= raw[j].value.from && raw[j].value.end <= r.value[i].end
  {
    if !NoHoles(raw) then Err(UndefinedPage)
    else Ok(seq(|raw|, i requires 0 <= i < |raw| =>
      var a, b, c := raw[Below(i)].value, raw[i].value, raw[Above(i, |raw|)].value;
      IndexRange(Min3(a.from, b.from, c.from), Max3(a.end, b.end, c.end))))
  }

  /** `scrollNamespace.pageInfo` once `calculatePageInfo` is done, or the error it throws. */
  function PageInfo(pos: seq<Placement>, height: nat, pageHeight: nat): (r: Result<seq<IndexRange>, PageError>)
    requires pageHeight > 0
    ensures r.Err? <==> !NoHoles(RawPages(pos, height, pageHeight))
    ensures r.Ok? ==> |r.value| == |RawPages(pos, height, pageHeight)|
  {
    Expand(RawPages(pos, height, pageHeight))
  }

  /** The page shown for a scroll offset: page 0 until the offset passes one
      page below the grid's start, then the page whose band holds the offset. */
  function CurrentPage(scrollTop: int, startFrom: int, pageHeight: nat): (p: nat)
    requires pageHeight > 0
    ensures p == 0 <==> scrollTop <= startFrom + pageHeight
    ensures p > 0 ==> p * pageHeight <= scrollTop - startFrom < p * pageHeight + pageHeight
  {
    if scrollTop > startFrom + pageHeight then (scrollTop - startFrom) / pageHeight else 0
  }

  /** Scrolling further down never shows an earlier page. */
  lemma CurrentPageMonotone(s1: int, s2: int, startFrom: int, pageHeight: nat)
    requires pageHeight > 0 && s1 <= s2
    ensures CurrentPage(s1, startFrom, pageHeight) <= CurrentPage(s2, startFrom, pageHeight)
  {
    var p1, p2 := CurrentPage(s1, startFrom, pageHeight), CurrentPage(s2, startFrom, pageHeight);
    if p1 > 0 {
      assert p2 > 0;
      assert p1 * pageHeight < (p2 + 1) * pageHeight;
      if p2 + 1 <= p1 {
        MulMono(p2 + 1, p1, pageHeight);
      }
    }
  }

  /** `Array.prototype.slice(from, end)` for non-negative bounds. */
  function Slice<T>(s: seq<T>, from: nat, end: nat): (r: seq<T>)
    ensures from < end && from < |s| ==> |r| == (if end < |s| then end else |s|) - from
    ensures !(from < end && from < |s|) ==> r == []
    ensures forall i :: 0 <= i < |r| ==> r[i] == s[from + i]
  {
    if from < end && from < |s| then s[from..if end < |s| then end else |s|] else []
  }

  /** The scan records a page entry whose ends both meet the page. */
  lemma {:induction false} ScanSound(pos: seq<Placement>, k: nat, lo: int, hi: int)
    requires k <= |pos|
    ensures var r := Scan(pos, k, lo, hi, None);
            r.Some? ==> k <= r.value.from < r.value.end <= |pos| &&
                        Meets(pos[r.value.from], lo, hi) && Meets(pos[r.value.end - 1], lo, hi)
    decreases |pos| - k
  {
    if k < |pos| && pos[k].top <= hi {
      if pos[k].bottom < lo {
        ScanSound(pos, k + 1, lo, hi);
      } else {
        ScanExtends(pos, k + 1, lo, hi, IndexRange(k, k + 1));
      }
    }
  }

  /** Scanning on from an entry keeps its `from` and moves its end only to
      items that meet the page. */
  lemma {:induction false} ScanExtends(pos: seq<Placement>, k: nat, lo: int, hi: int, r0: IndexRange)
    requires k <= |pos| && r0.end <= k
    ensures var r := Scan(pos, k, lo, hi, Some(r0));
            r.Some? && r.value.from == r0.from && r0.end <= r.value.end <= |pos| &&
            (r.value.end == r0.end || (k < r.value.end && Meets(pos[r.value.end - 1], lo, hi)))
    decreases |pos| - k
  {
    if k < |pos| && pos[k].top <= hi {
      if pos[k].bottom < lo {
        ScanExtends(pos, k + 1, lo, hi, r0);
      } else {
        ScanExtends(pos, k + 1, lo, hi, IndexRange(r0.from, k + 1));
      }
    }
  }

  /** With the items in order of their tops the early `break` loses nothing:
      every item from `k` on that meets the page lies inside the entry the scan
      records. */
  lemma {:induction false} ScanCovers(pos: seq<Placement>, k: nat, lo: int, hi: int, acc: Option<IndexRange>, m: nat)
    requires SortedTops(pos)
    requires k <= m < |pos| && Meets(pos[m], lo, hi)
    requires acc.Some? ==> acc.value.from <= m && acc.value.end <= k
    ensures var r := Scan(pos, k, lo, hi, acc);
            r.Some? && r.value.from <= m < r.value.end
    decreases |pos| - k
  {
    assert pos[k].top <= pos[m].top;
    if k == m {
      ScanExtends(pos, k + 1, lo, hi, Record(acc, k));
    } else if pos[k].bottom < lo {
      ScanCovers(pos, k + 1, lo, hi, acc, m);
    } else {
      ScanCovers(pos, k + 1, lo, hi, Some(Record(acc, k)), m);
    }
  }

  /** Every item that meets page `j` (one of the pages scanned) lies inside
      that page's entry of the raw page array. */
  lemma {:induction false} RawPagesCover(pos: seq<Placement>, pageHeight: nat, n: nat, j: nat, m: nat)
    requires SortedTops(pos) && pageHeight > 0
    requires j < n && m < |pos| && Meets(pos[m], j * pageHeight, (j + 1) * pageHeight)
    ensures var raw := RawPagesUpTo(pos, pageHeight, n);
            j < |raw| && raw[j].Some? && raw[j].value.from <= m < raw[j].value.end
    decreases n
  {
    var prev := RawPagesUpTo(pos, pageHeight, n - 1);
    if j == n - 1 {
      var acc := SlotAt(prev, j);
      assert acc.Some? ==> acc.value.from <= m && acc.value.end <= 0 by {
        if j > 0 {
          assert |prev| <= j;
        }
      }
      ScanCovers(pos, 0, j * pageHeight, (j + 1) * pageHeight, acc, m);
    } else {
      RawPagesCover(pos, pageHeight, n - 1, j, m);
    }
  }

  /** Every entry of the raw page array (other than the untouched `{from: 0}`
      of page 0) is a non-empty run of items whose last item meets its page;
      after page 0 its first item meets the page too. */
  lemma {:induction false} RawPagesSound(pos: seq<Placement>, pageHeight: nat, n: nat, j: nat)
    requires pageHeight > 0
    requires j < |RawPagesUpTo(pos, pageHeight, n)| && RawPagesUpTo(pos, pageHeight, n)[j].Some?
    requires j > 0 || RawPagesUpTo(pos, pageHeight, n)[j].value.end > 0
    ensures var r := RawPagesUpTo(pos, pageHeight, n)[j].value;
            r.from < r.end <= |pos| && Meets(pos[r.end - 1], j * pageHeight, (j + 1) * pageHeight) &&
            (j > 0 ==> Meets(pos[r.from], j * pageHeight, (j + 1) * pageHeight))
    decreases n
  {
    var raw := RawPagesUpTo(pos, pageHeight, n);
    if n == 0 {
      assert false;
    }
    var prev := RawPagesUpTo(pos, pageHeight, n - 1);
    var lo, hi := (n - 1) * pageHeight, n * pageHeight;
    if j < |prev| && j != n - 1 {
      RawPagesSound(pos, pageHeight, n - 1, j);
    } else {
      assert j == n - 1;
      var acc := SlotAt(prev, j);
      if j == 0 {
        assert acc == Some(IndexRange(0, 0));
        ScanExtends(pos, 0, lo, hi, IndexRange(0, 0));
      } else {
        assert |prev| <= j;
        ScanSound(pos, 0, lo, hi);
      }
    }
  }

  /** End to end: with the placements the packer produces, every item that
      meets page j lies in the widened range of page j and of both its
      neighbours. */
  lemma {:induction false} WindowCoversNeighbours(cols: nat, hs: seq<nat>, g: nat, pageHeight: nat, i: nat, j: nat, m: nat)
    requires cols > 0 && pageHeight > 0
    requires PageInfo(Placements(cols, hs, g), ContainerHeight(cols, hs, g), pageHeight).Ok?
    requires j < TotalPages(ContainerHeight(cols, hs, g), pageHeight)
    requires i < |PageInfo(Placements(cols, hs, g), ContainerHeight(cols, hs, g), pageHeight).value|
    requires i - 1 <= j <= i + 1
    requires m < |hs| && Meets(Placements(cols, hs, g)[m], j * pageHeight, (j + 1) * pageHeight)
    ensures var w := PageInfo(Placements(cols, hs, g), ContainerHeight(cols, hs, g), pageHeight).value[i];
            w.from <= m < w.end
  {
    var pos := Placements(cols, hs, g);
    var height := ContainerHeight(cols, hs, g);
    PlacementsSorted(cols, hs, g);
    RawPagesCover(pos, pageHeight, TotalPages(height, pageHeight), j, m);
  }

  /** The raw page array of the packed example below: page 0 runs to item
      2, pages 1 to 3 hold item 0 alone. */
  lemma ExampleRawPages(pos: seq<Placement>)
    requires pos == [Placement(0, 0, 300), Placement(1, 0, 50), Placement(1, 60, 70)]
    ensures RawPages(pos, 310, 100) ==
            [Some(IndexRange(0, 3)), Some(IndexRange(0, 1)), Some(IndexRange(0, 1)), Some(IndexRange(0, 1))]
  {
    assert TotalPages(310, 100) == 4;
    assert Scan(pos, 3, 0, 100, Some(IndexRange(0, 3))) == Some(IndexRange(0, 3));
    assert Scan(pos, 2, 0, 100, Some(IndexRange(0, 2))) == Some(IndexRange(0, 3));
    assert Scan(pos, 1, 0, 100, Some(IndexRange(0, 1))) == Some(IndexRange(0, 3));
    assert Scan(pos, 0, 0, 100, Some(IndexRange(0, 0))) == Some(IndexRange(0, 3));
    var r1 := RawPagesUpTo(pos, 100, 1);
    assert r1 == [Some(IndexRange(0, 3))];
    forall p: nat | 1 <= p <= 3
      ensures Scan(pos, 0, p * 100, (p + 1) * 100, None) == Some(IndexRange(0, 1))
    {
      assert Scan(pos, 3, p * 100, (p + 1) * 100, Some(IndexRange(0, 1))) == Some(IndexRange(0, 1));
      assert Scan(pos, 2, p * 100, (p + 1) * 100, Some(IndexRange(0, 1))) == Some(IndexRange(0, 1));
      assert Scan(pos, 1, p * 100, (p + 1) * 100, Some(IndexRange(0, 1))) == Some(IndexRange(0, 1));
    }
    var r2 := RawPagesUpTo(pos, 100, 2);
    assert r2 == [Some(IndexRange(0, 3)), Some(IndexRange(0, 1))];
    var r3 := RawPagesUpTo(pos, 100, 3);
    assert r3 == [Some(IndexRange(0, 3)), Some(IndexRange(0, 1)), Some(IndexRange(0, 1))];
  }

  /** The widening as written can drop items from the page they are on. Two
      columns, gutter 10, pages 100 high, heights 300, 50 and 10: the first
      item spans pages 0 to 3, the other two sit in page 0, so page 0 runs
      to item 2 but page 1 only to item 0, and the widened page 0 keeps item
      0 alone although items 1 and 2 meet page 0. */
  lemma AsWrittenDropsItems()
    ensures var pos := Placements(2, [300, 50, 10], 10);
            var raw := RawPages(pos, ContainerHeight(2, [300, 50, 10], 10), 100);
            raw == [Some(IndexRange(0, 3)), Some(IndexRange(0, 1)), Some(IndexRange(0, 1)), Some(IndexRange(0, 1))] &&
            ExpandAsWritten(raw) == Ok([IndexRange(0, 1), IndexRange(0, 1), IndexRange(0, 1), IndexRange(0, 1)]) &&
            Meets(pos[1], 0, 100) && Meets(pos[2], 0, 100) &&
            Expand(raw) == Ok([IndexRange(0, 3), IndexRange(0, 3), IndexRange(0, 1), IndexRange(0, 1)])
  {
    ThreeItemPacking();
    ExampleRawPages(Placements(2, [300, 50, 10], 10));
    ExampleWidening([Some(IndexRange(0, 3)), Some(IndexRange(0, 1)), Some(IndexRange(0, 1)), Some(IndexRange(0, 1))]);
  }

  /** Both widenings of the example's raw page array. */
  lemma ExampleWidening(raw: seq<Option<IndexRange>>)
    requires raw == [Some(IndexRange(0, 3)), Some(IndexRange(0, 1)), Some(IndexRange(0, 1)), Some(IndexRange(0, 1))]
    ensures ExpandAsWritten(raw) == Ok([IndexRange(0, 1), IndexRange(0, 1), IndexRange(0, 1), IndexRange(0, 1)])
    ensures Expand(raw) == Ok([IndexRange(0, 3), IndexRange(0, 3), IndexRange(0, 1), IndexRange(0, 1)])
  {
    assert NoHoles(raw);
    var w := ExpandAsWritten(raw).value;
    assert w[0] == IndexRange(0, 1) && w[1] == IndexRange(0, 1) && w[2] == IndexRange(0, 1) && w[3] == IndexRange(0, 1);
    assert w == [IndexRange(0, 1), IndexRange(0, 1), IndexRange(0, 1), IndexRange(0, 1)];
    var e := Expand(raw).value;
    assert e[0] == IndexRange(0, 3) && e[1] == IndexRange(0, 3) && e[2] == IndexRange(0, 1) && e[3] == IndexRange(0, 1);
    assert e == [IndexRange(0, 3), IndexRange(0, 3), IndexRange(0, 1), IndexRange(0, 1)];
  }
}

=== FILE: wrappers.dfy ===
/** Option and Result, for the values the directive leaves undefined and the
    operations that throw. */
module Wrappers {

  datatype Option<+T> = None | Some(value: T)

  datatype Result<+T, +E> = Ok(value: T) | Err(error: E)

  /** The value of `o`, or `default` when `o` is `None`. */
  function GetOr<T>(o: Option<T>, default: T): T
  {
    match o
    case Some(v) => v
    case None => default
  }
}
